=== FILE: README.md ===
# Lepak Driver bot: a Dafny model of its core

The bot answers Singapore transport questions in a Telegram chat. A language model reads
each question together with the day's conversation. It may call four tools: bus arrivals
at a stop, bus stops near a place, arrivals near a place, and carpark availability. The
tools use LTA DataMall through a gateway class. The bot then asks the model a second
time with the tool results, and stores the exchange in a bounded daily history.

This project models the deterministic core of that bot and proves properties of it:

- `Text`: the string operations the core relies on. These include lower-casing,
  `str.split()`/`" ".join`, `strip`, substring tests, `split('_')`, `replace`,
  `str(int)`, string `<`, and the matcher's text normalisation.
- `Sequences`: order-preserving filtering. The score floor, the service
  filter, the carpark filter and the clean-up use it; the live-arrival lines
  filter and transform at once and are written out separately.
- `Matcher`: the bus-stop matcher. It covers the tiered similarity score, the
  0.1 floor, the stable descending sort, the `top_k` cut, and the projection
  returned to the tools.
- `Gateway`: the classification in `LTADataManager`. HTTP outcomes become error
  records or normalised arrival and carpark records. It also models the bus-slot
  formatting and the carpark filter.
- `Tools`: the four tool functions. Each first decides what to show (a view)
  and then renders it to the chat text. This module also holds the tool
  registry.
- `Conversation`: the exchange record, the 20-exchange history, its flattening
  into chat messages, the daily file name, and the clean-up predicate.
- `Orchestrator`: one turn of `process_user_message`. That is the first model
  request, the tool dispatch loop, the follow-up request, history update, and
  the error path.

Four kinds of behaviour are parameters of the model:

- The language model is a function from a request to an answer or a failure.
- The similarity ratio of `difflib.SequenceMatcher` is any function into [0, 1].
- The upstream HTTP outcome is an input value: a response with status, reason
  and body, or one of the exceptions the gateway distinguishes.
- The current time is passed in as text, and a bus arrival stamp is given by its
  distance from now in seconds.

## Model

| member | source | states |
|---|---|---|
| Text.Clean | lta_integration.py:204 | each character is lower-cased, and every character that is neither a word character nor whitespace becomes a space, position by position |
| Text.CollapseStripIsJoin | lta_integration.py:205 | collapsing every whitespace run to one space and stripping the ends gives the `split()` words joined by single spaces |
| Text.NormalizeIsJoin | lta_integration.py:199-206 | the normalised text is the words of the cleaned text joined by single spaces; empty input gives "" |
| Text.NormalizeWords | lta_integration.py:199-206 | normalising keeps exactly the words of the cleaned text, in order |
| Text.NormalizeShape | lta_integration.py:199-206 | normalised text holds only lower-case word characters and single spaces with none at either end; empty input gives "" |
| Text.NormalizeIdempotent | lta_integration.py:199-206 | normalising normalised text changes nothing |
| Text.NormalizeBlank | lta_integration.py:199-206 | text made only of whitespace normalises to "" |
| Text.WordsOfNormalize | lta_integration.py:237-238 | splitting normalised text and joining with single spaces gives it back; it is "" exactly when it has no words |
| Text.WordsOfJoin | lta_integration.py:237-238 | `split()` recovers the words that `" ".join` put together, for words without whitespace |
| Text.StripEmptyIffBlank | lta_integration.py:262 | `strip()` yields "" exactly when every character is whitespace |
| Matcher.ScoreStop | lta_integration.py:208-255 | every score lies in [0, 1] and belongs to the stop scored |
| Matcher.ScoreTiers | lta_integration.py:220-255 | exact code match (lower-case) wins with 1.0 before containment is tried; otherwise containment in the road-and-description text gives 0.9; otherwise the score is the larger of the better field ratio and the word boost, and it names the road field only when its ratio is strictly larger |
| Matcher.FallbackScore | lta_integration.py:229-251 | the fallback score is in [0, 1] and at least each field's ratio |
| Matcher.WordHits | lta_integration.py:240-246 | hits never exceed the number of query words; every word counts exactly when each is longer than two characters and is contained in, or more than 0.8 similar to, some candidate word, and none counts exactly when no word is both |
| Matcher.WordHitsCount | lta_integration.py:240-246 | the hit count is exactly the number of query words longer than two characters that are contained in, or more than 0.8 similar to, some candidate word, each counted once |
| Matcher.Boost | lta_integration.py:248-251 | the word boost lies in [0, 0.8]; it is 0.8 exactly when every query word counts as a hit and 0 exactly when none does |
| Matcher.ScoreAll | lta_integration.py:268-269 | every catalog stop is scored, in catalog order |
| Matcher.AboveFloor | lta_integration.py:271-276 | exactly the matches scoring above 0.1 are kept, as a subsequence of the input (catalog order preserved) |
| Matcher.WithScoreAboveFloor | lta_integration.py:271-276 | for a score above 0.1, the matches with that score are the same, in the same order, before and after the floor |
| Matcher.SortByScore | lta_integration.py:279 | the sort is a permutation and leaves scores non-increasing |
| Matcher.SortIsStable | lta_integration.py:279 | for each score value, matches of that score keep their input order |
| Matcher.SliceTo | lta_integration.py:282 | `s[:k]` is a prefix of length min(k, len) for k >= 0 and drops -k elements for k < 0 |
| Matcher.RankKeepsOrder | lta_integration.py:271-282 | for each score, the ranked matches with that score are a prefix of the input's matches with that score |
| Matcher.RankSpec | lta_integration.py:266-282 | the ranked list holds only matches above 0.1, is non-increasing, lists the matches of each score as a prefix of the input's matches of that score (ties in input order), has at most `top_k` entries, omits nothing that outranks an entry, and keeps everything above 0.1 when shorter than `top_k`; its length is that of `[:top_k]` applied to the matches above 0.1 (negative `top_k` included), and it holds those matches with their multiplicities, all of them when nothing is cut |
| Matcher.RankCount | lta_integration.py:271-282 | the ranked list has the length `[:top_k]` gives the matches above 0.1, is a sub-multiset of them, and equals them as a multiset when nothing is cut |
| Matcher.FindMatchesSpec | lta_integration.py:257-282 | empty for an empty catalog or blank query; otherwise each entry is a catalog stop with its own score above 0.1, ranked as above with ties in catalog order, complete when shorter than `top_k`, as long as `[:top_k]` of the catalog's matches above 0.1, and holding them with their multiplicities |
| Matcher.ExactCodeRanksFirst | lta_integration.py:220-222 | a query that normalises to a stop's code puts a 1.0 score first in the shortlist |
| Matcher.FindStopsForLocation | lta_integration.py:285-297 | the projection keeps each match's code, road, description, score and reason, in rank order |
| Gateway.KindNameRoundTrip | lta_integration.py:55-101 | each error kind has its own `error_type` string, which reads back as that kind |
| Gateway.CrowdingMapClosed | lta_integration.py:119-129 | exactly SEA, SDA and LSD map to a known crowding level; every other load code is Unknown |
| Gateway.MinutesUntil | lta_integration.py:113 | the minute count is truncated toward zero: the seconds lie within one minute of it, on the side away from zero |
| Gateway.MinutesExamples | lta_integration.py:113 | 90 s gives 1, ±59 s gives 0, -90 s gives -1, 120 s gives 2 |
| Gateway.PastStampNotAhead | lta_integration.py:113 | a stamp in the past never gives a positive minute count |
| Gateway.FormatBusInfo | lta_integration.py:103-132 | an empty slot is unavailable; otherwise minutes are absent exactly when the stamp is missing or unparsable, are the truncated minute count otherwise, and the load follows the closed map |
| Gateway.ArrivalFromResponse | lta_integration.py:55-88 | once a response arrived: success exactly for status 200 with a parsed body holding `Services`, one formatted service per upstream service in order; 401, 429, 404 and every other non-200 status, bad JSON and a missing `Services` key each give their own error kind, the other statuses with the status in the message |
| Gateway.GetBusArrival | lta_integration.py:43-101 | success exactly when a 200 response with `Services` arrived, classified as above; timeout, connection, other request failures and any other exception each give their own error kind, the last two quoting the exception text |
| Gateway.FilterCarparksSpec | lta_integration.py:156-174 | the kept carparks are the upstream list narrowed in order: exactly those matching the id and the case-insensitive area-in-development filters, each as often as upstream; no filter keeps everything |
| Gateway.GetCarparkAvailability | lta_integration.py:134-181 | 4xx/5xx statuses and transport failures give a `request` error, an unparsable body a `json` error, any other exception escapes, and a parsed body of any other status gives the data: the filtered list of `value`, stamped with the current time |
| Tools.ArrivalHeading | tool_functions.py:11-27 | auth, not-found, rate-limit, timeout and connection errors each get their own heading; every other kind gets the generic one |
| Tools.RenderArrival | tool_functions.py:11-27 | an error notice starts with its heading and contains the gateway's message verbatim |
| Tools.PhraseFor | tool_functions.py:47-61 | unknown minutes read N/A, zero or fewer read Arriving now, exactly one reads 1 minute, two or more read N minutes |
| Tools.ArrivalViewSpec | tool_functions.py:7-65 | errors keep kind and message; a non-success record is an unexpected response; no services says so; otherwise exactly the services matching the filter are shown in order, all of them without a filter |
| Tools.Numbered | tool_functions.py:76-79 | the stop list is numbered 1 to n in rank order |
| Tools.FindStopsToolSpec | tool_functions.py:67-83 | no matches give the no-match text; otherwise the header counts the matches and the entries are the matches numbered 1 to n |
| Tools.LiveLineOf | tool_functions.py:127-138 | a service has a live line exactly when it passes the service filter and its next bus has a known minute count; the line carries the service number and the bus's load, and reads Arriving now for zero or fewer minutes, `Nmin` otherwise |
| Tools.LiveLines | tool_functions.py:127-138 | never more lines than services, and a line is shown exactly when it is the live line of one of the services |
| Tools.LiveLinesInOrder | tool_functions.py:127-138 | one line per service that has one, in service order: the i-th line is the live line of the i-th such service |
| Tools.StatusOf | tool_functions.py:109-138 | a stop shows live arrivals exactly when its lookup succeeded with a non-empty service list, and then its lines are the live lines of the first three services, one per such service in service order, at most three of them |
| Tools.CountLive | tool_functions.py:96-124 | the live-stop count is zero exactly when no report shows live arrivals |
| Tools.LocationViewSpec | tool_functions.py:85-149 | at most three stops are reported, numbered from 1, each with the status of its own lookup; the header counts every match; the no-live-data note appears exactly when no reported stop had services |
| Tools.CarparkViewSpec | tool_functions.py:151-186 | the error kind picks the heading; an empty list is reported by id, then by area, then generically; otherwise the first eight are listed in order and "N more" appears exactly when there are more than eight, with shown plus N equal to the total |
| Tools.RegistrySpec | tool_functions.py:188-194 | four distinct names; a name is found exactly when registered, as the tool registered under it, and every tool is found under its own name |
| Tools.Invoke | tool_functions.py:151-153 | a tool raises exactly when it is the carpark tool and the gateway met an unanticipated exception |
| Conversation.NewExchange | bot.py:86-94 | the exchange records time, user text and reply; tool calls are recorded exactly when there are some |
| Conversation.KeepRecentSpec | bot.py:99-100 | `[-20:]` keeps min(n, 20) elements, and they are the last ones of the list |
| Conversation.AddExchange | bot.py:96-100 | the new exchange is last, the history never exceeds 20, nothing is dropped below 20, and the older entries kept are the most recent ones |
| Conversation.KeepRecentAbsorbs | bot.py:99-100 | trimming before appending does not change what a later trim keeps |
| Conversation.AddExchangeKeepsRecent | bot.py:79-103 | adding an exchange to a history that holds the most recent 20 of all exchanges so far leaves the most recent 20 of all exchanges including the new one (so, from an empty file, the history is always the last 20 of everything said) |
| Conversation.Flatten | bot.py:105-113 | two messages per exchange |
| Conversation.FlattenPairs | bot.py:105-113 | message 2i is the user text and message 2i+1 the reply of exchange i |
| Conversation.FlattenIgnoresTools | bot.py:110-112 | tool call records do not affect the messages sent to the model |
| Conversation.FilePath | bot.py:49-51 | the path is `conversations/` followed by `user_<id>_<date>.json` |
| Conversation.FileNameDateRoundTrip | bot.py:125-133 | the clean-up reads the date back out of a file name it produced and removes the file exactly when that date sorts before the cutoff |
| Conversation.Survivors | bot.py:125-133 | exactly the files the predicate spares remain, in directory order |
| Orchestrator.FirstMessages | bot.py:168-176 | system prompt first, the flattened history next, the new user message last |
| Orchestrator.ResponseFor | bot.py:204-214 | an unknown name gives the unknown-function notice, a raising tool the error-executing notice, otherwise the tool's text |
| Orchestrator.LogFor | bot.py:204-214 | unknown names are not logged; known ones are logged with their arguments, with an error exactly when the tool raised |
| Orchestrator.LogsSpec | bot.py:198-214 | at most one log entry per call, only for registered names, and no log at all exactly when no call names a registered tool |
| Orchestrator.Dispatch | bot.py:198-214 | the first call whose arguments do not parse aborts with its parse error; otherwise one response per call in call order, and the log of the known calls |
| Orchestrator.ToolMessages | bot.py:230-236 | the i-th tool message carries the i-th response under the i-th call's id |
| Orchestrator.SecondMessages | bot.py:217-236 | the follow-up request extends the first with the assistant's calls and one tool message per call, paired by position |
| Orchestrator.Process | bot.py:160-265 | the first request offers tools and the second never does. With no tool calls, the first reply is returned and stored. With calls, the follow-up reply is returned and stored with the tool log. A model failure or argument parse failure returns the apology with the exception text and leaves the history unchanged |

## Left out

- HTTP, files, the clock and logging: the upstream outcome, the loaded history, the timestamps and the cutoff date are inputs. The saved file contents, `print`, `log_conversation` and the token-usage log lines are not modelled.
- The request rate limiter `_rate_limit` (lta_integration.py:23-33): it only sleeps and counts, so it has no effect on any result.
- `difflib.SequenceMatcher.ratio`: its algorithm is not modelled; every property holds for any ratio function into [0, 1].
- Floating point: scores are exact reals. The `:.1%` rendering of a score is a parameter. A match reason carries the exact score; its `:.2f` text is not modelled.
- Unicode: `\w`, `\s`, `lower()` and `strip()` are modelled on ASCII (whitespace is space, tab to carriage return, and the separators 0x1C to 0x1F). Other characters are punctuation to the normaliser and unchanged by lower-casing.
- ISO-8601 parsing of `EstimatedArrival`: the parsed stamp is given as seconds from now, or as missing or unparsable.
- Gateway.ArrivalFromResponse: a 200 response whose body is not JSON is classified as `json`. With requests 2.27 or later the decode error is also a `RequestException`, which the earlier `except` clause would report as `request`.
- Gateway.GetBusArrival: a 200 response whose body is not JSON is classified as `json`. With requests 2.27 or later, `response.json()` raises an exception that is also a `RequestException`. The earlier `except` clause would then report it as `request`.
- Gateway.GetCarparkAvailability: an unparsable body is classified as `json`. With requests 2.27 or later the decode error is also a `RequestException` and would be reported as `request`.
- Gateway.GetCarparkAvailability: the `reason` field stands for the whole text of the `HTTPError` that `raise_for_status` raises.
- Upstream JSON shapes other than the modelled ones, for example a `Services` value that is not a list, or a service record without `ServiceNo`, are not modelled.
- Keyword binding of tool arguments (`**function_args`): the orchestrator runs tools through a parameter. `Tools.Invoke` shows what each tool does once its arguments are bound. A left-out `max_results` or `max_stops` takes the default 5; other missing or extra keyword arguments (a `TypeError` in Python) are not modelled.
- Orchestrator.Process: when the model returns neither content nor tool calls, the reply is absent (`None`), as in the source. The Telegram handlers, the system prompt file and `test_setup.py` are not part of this model.
- Orchestrator.Process: the history is loaded once, and the new exchange is appended to that history. The source reads the file again before appending, and each read and the save take `date.today()` afresh. A message handled across midnight therefore builds its prompt from the old day's file, but the source saves `[exchange]` alone to the new day's file; the model appends to the old day's history instead.
- Orchestrator.Process: an exception raised while logging token usage, after the history is saved, is not modelled.
- `cleanup_old_conversations`: computing the cutoff as today minus seven days and deleting files are not modelled. Only the predicate deciding which files go is modelled.

=== FILE: conversation.dfy ===
/**
 * Per-user conversation memory: the record kept for each exchange, the
 * bounded history, its flattening into chat messages, and the file naming
 * that the daily files and their clean-up rely on.
 */
module Conversation {
  import opened Optional
  import opened Text
  import opened Sequences

  /** At most this many exchanges are kept per user and day. */
  const HistoryLimit: nat := 20

  /** The directory holding the daily conversation files. */
  const ConversationsDir: string := "conversations"

  /** A tool call's arguments: each argument name with its JSON text. */
  type Args = map<string, string>

  /** What is recorded about one executed tool call; `error` is present when it raised. */
  datatype ToolLog = ToolLog(tool: string, args: Args, error: Option<string>)

  /**
   * One stored exchange. `assistant` is absent when the model's reply had no
   * content; `toolCalls` is absent when no tool call was recorded.
   */
  datatype Exchange = Exchange(timestamp: string, user: string, assistant: Option<string>, toolCalls: Option<seq<ToolLog>>)

  /** The record of one exchange; an empty tool log is not stored at all. */
  function NewExchange(timestamp: string, user: string, assistant: Option<string>, calls: seq<ToolLog>): (e: Exchange)
    ensures e.timestamp == timestamp && e.user == user && e.assistant == assistant
    ensures e.toolCalls.Some? <==> calls != []
    ensures e.toolCalls.Some? ==> e.toolCalls.value == calls
  {
    Exchange(timestamp, user, assistant, if calls != [] then Some(calls) else None)
  }

  /** The last `HistoryLimit` elements of `s`, or all of them when there are fewer: `s[-20:]` when `len(s) > 20`. */
  function KeepRecent<T>(s: seq<T>): seq<T> {
    if |s| > HistoryLimit then s[|s| - HistoryLimit..] else s
  }

  /** The trimmed list is the suffix of `s` of length min(|s|, 20). */
  lemma KeepRecentSpec<T>(s: seq<T>)
    ensures |KeepRecent(s)| == if |s| > HistoryLimit then HistoryLimit else |s|
    ensures KeepRecent(s) == s[|s| - |KeepRecent(s)|..]
  {
  }

  /** Appending one exchange and keeping the most recent twenty. */
  function AddExchange(history: seq<Exchange>, e: Exchange): (r: seq<Exchange>)
    ensures 0 < |r| <= HistoryLimit
    ensures |r| == if |history| < HistoryLimit then |history| + 1 else HistoryLimit
    ensures r[|r| - 1] == e
    ensures |history| < HistoryLimit ==> r == history + [e]
    ensures r[..|r| - 1] == history[|history| + 1 - |r|..]
  {
    var r := KeepRecent(history + [e]);
    KeepRecentSpec(history + [e]);
    assert r[..|r| - 1] == (history + [e])[|history| + 1 - |r|..|history|];
    r
  }

  /** Trimming before appending does not change what is kept after a later trim. */
  lemma KeepRecentAbsorbs<T>(a: seq<T>, b: seq<T>)
    ensures KeepRecent(KeepRecent(a) + b) == KeepRecent(a + b)
  {
    if |a| > HistoryLimit {
      var k := a[|a| - HistoryLimit..];
      assert KeepRecent(a) == k;
      assert k + b == (a + b)[|a| - HistoryLimit..];
      var n := |a + b| - HistoryLimit;
      assert KeepRecent(k + b) == (k + b)[|k + b| - HistoryLimit..];
      assert (k + b)[|k + b| - HistoryLimit..] == (a + b)[n..];
    }
  }

  /**
   * The stored history is always the most recent twenty of every exchange
   * so far: if it is before an addition, it still is after it, so by
   * induction on the number of additions it holds from the empty history on.
   */
  lemma AddExchangeKeepsRecent(all: seq<Exchange>, history: seq<Exchange>, e: Exchange)
    requires history == KeepRecent(all)
    ensures AddExchange(history, e) == KeepRecent(all + [e])
  {
    KeepRecentAbsorbs(all, [e]);
  }

  // ---------------------------------------------------------------------------
  // Chat messages
  // ---------------------------------------------------------------------------

  /** A tool call requested by the model: its id, the tool's name and the JSON text of its arguments. */
  datatype ToolCall = ToolCall(id: string, name: string, arguments: string)

  /** A chat message by role. */
  datatype Message =
    | SystemMsg(content: string)
    | UserMsg(content: string)
    | AssistantMsg(reply: Option<string>)
    | AssistantCalls(reply: Option<string>, calls: seq<ToolCall>)
    | ToolMsg(content: string, callId: string)

  /** The history as chat messages: each exchange becomes the user's message then the assistant's. */
  function Flatten(history: seq<Exchange>): (m: seq<Message>)
    ensures |m| == 2 * |history|
  {
    if history == [] then []
    else [UserMsg(history[0].user), AssistantMsg(history[0].assistant)] + Flatten(history[1..])
  }

  /**
   * Message 2i is what the user said in exchange i and message 2i+1 is the
   * assistant's reply to it, for every i; tool call records are dropped.
   */
  lemma {:induction false} FlattenPairs(history: seq<Exchange>)
    ensures forall i :: 0 <= i < |history| ==>
      Flatten(history)[2 * i] == UserMsg(history[i].user)
      && Flatten(history)[2 * i + 1] == AssistantMsg(history[i].assistant)
    decreases |history|
  {
    if history != [] {
      var rest := history[1..];
      FlattenPairs(rest);
      var m := Flatten(history);
      forall i | 1 <= i < |history|
        ensures m[2 * i] == UserMsg(history[i].user) && m[2 * i + 1] == AssistantMsg(history[i].assistant)
      {
        assert m[2 * i] == Flatten(rest)[2 * (i - 1)];
        assert m[2 * i + 1] == Flatten(rest)[2 * (i - 1) + 1];
        assert rest[i - 1] == history[i];
      }
    }
  }

  /** Two histories that agree on what was said flatten alike, whatever tools they record. */
  lemma {:induction false} FlattenIgnoresTools(h1: seq<Exchange>, h2: seq<Exchange>)
    requires |h1| == |h2|
    requires forall i :: 0 <= i < |h1| ==> h1[i].user == h2[i].user && h1[i].assistant == h2[i].assistant
    ensures Flatten(h1) == Flatten(h2)
    decreases |h1|
  {
    if h1 != [] {
      FlattenIgnoresTools(h1[1..], h2[1..]);
    }
  }

  // ---------------------------------------------------------------------------
  // Daily files
  // ---------------------------------------------------------------------------

  /** `user_<id>_<date>.json`. */
  function FileName(userId: int, date: string): string {
    "user_" + IntToString(userId) + "_" + date + ".json"
  }

  /** The file holding one user's conversation of one day. */
  function FilePath(userId: int, date: string): (p: string)
    ensures StartsWith(p, ConversationsDir + "/")
    ensures p[|ConversationsDir| + 1..] == FileName(userId, date)
  {
    ConversationsDir + "/" + FileName(userId, date)
  }

  /**
   * Whether the clean-up removes a file: a `.json` name containing an
   * underscore whose third underscore-separated part, with `.json` removed,
   * sorts before the cutoff date.
   */
  predicate ShouldDelete(filename: string, cutoff: string) {
    && EndsWith(filename, ".json")
    && '_' in filename
    && var parts := SplitOn(filename, '_');
       |parts| >= 3 && StrLess(ReplaceAll(parts[2], ".json", ""), cutoff)
  }

  /**
   * The clean-up reads back the date a file was named with: for a date with
   * no underscore or dot, the file is removed exactly when its date sorts
   * before the cutoff.
   */
  lemma FileNameDateRoundTrip(userId: int, date: string, cutoff: string)
    requires '_' !in date && '.' !in date
    ensures ShouldDelete(FileName(userId, date), cutoff) <==> StrLess(date, cutoff)
  {
    var name := FileName(userId, date);
    FileNameParts(userId, date);
    ReplaceSuffix(date, ".json");
    assert name[4] == '_';
    assert name[|name| - 5..] == ".json";
  }

  /** A file name splits on '_' into "user", the id and the date with its extension. */
  lemma FileNameParts(userId: int, date: string)
    requires '_' !in date
    ensures SplitOn(FileName(userId, date), '_') == ["user", IntToString(userId), date + ".json"]
  {
    var id := IntToString(userId);
    var tail := date + ".json";
    assert FileName(userId, date) == "user" + ['_'] + (id + ['_'] + tail);
    NoUnderscoreInNumber(userId);
    NoUnderscoreAdded(date, ".json");
    SplitOnFirst("user", '_', id + ['_'] + tail);
    SplitOnFirst(id, '_', tail);
  }

  lemma NoUnderscoreInNumber(i: int)
    ensures '_' !in IntToString(i)
  {
    var s := IntToString(i);
    forall k | 0 <= k < |s| ensures s[k] != '_' { }
  }

  lemma NoUnderscoreAdded(a: string, b: string)
    requires '_' !in a && '_' !in b
    ensures '_' !in a + b
  {
    var s := a + b;
    forall k | 0 <= k < |s| ensures s[k] != '_' {
      if k < |a| { assert s[k] == a[k]; } else { assert s[k] == b[k - |a|]; }
    }
  }

  /** The files the clean-up leaves in place, in directory order. */
  function Survivors(files: seq<string>, cutoff: string): (r: seq<string>)
    ensures forall f :: f in r <==> f in files && !ShouldDelete(f, cutoff)
    ensures IsSubsequence(r, files)
  {
    Filter(files, f => !ShouldDelete(f, cutoff))
  }
}

=== FILE: gateway.dfy ===
/**
 * The transit-data gateway (`LTADataManager`) without the HTTP call: the
 * upstream outcome is an input, and the gateway classifies it into the error
 * taxonomy or normalises it into the internal shape.
 */
module Gateway {
  import opened Optional
  import opened Text
  import opened Sequences

  // ---------------------------------------------------------------------------
  // Error taxonomy
  // ---------------------------------------------------------------------------

  /** The `error_type` values the gateway returns. */
  datatype ErrorKind =
    | Auth | RateLimit | NotFound | ApiError | InvalidFormat
    | Timeout | Connection | Request | Json | Unknown

  /** The `error_type` string of each kind. */
  function KindName(k: ErrorKind): string {
    match k
    case Auth => "auth"
    case RateLimit => "rate_limit"
    case NotFound => "not_found"
    case ApiError => "api_error"
    case InvalidFormat => "invalid_format"
    case Timeout => "timeout"
    case Connection => "connection"
    case Request => "request"
    case Json => "json"
    case Unknown => "unknown"
  }

  /** Reading an `error_type` string back; unrecognised strings give `None`. */
  function KindFromName(s: string): Option<ErrorKind> {
    if s == "auth" then Some(Auth)
    else if s == "rate_limit" then Some(RateLimit)
    else if s == "not_found" then Some(NotFound)
    else if s == "api_error" then Some(ApiError)
    else if s == "invalid_format" then Some(InvalidFormat)
    else if s == "timeout" then Some(Timeout)
    else if s == "connection" then Some(Connection)
    else if s == "request" then Some(Request)
    else if s == "json" then Some(Json)
    else if s == "unknown" then Some(Unknown)
    else None
  }

  /** Every kind has its own `error_type` string, and the string identifies the kind. */
  lemma KindNameRoundTrip(k: ErrorKind)
    ensures KindFromName(KindName(k)) == Some(k)
  {
  }

  // ---------------------------------------------------------------------------
  // What comes back from upstream
  // ---------------------------------------------------------------------------

  /** The response body: parsed JSON of the expected shape, or text `response.json()` rejects. */
  datatype Body<T> = Parsed(payload: T) | Unparsable(detail: string)

  /**
   * The outcome of `requests.get`: a response (status code, the reason text
   * `raise_for_status` would report, body), or one of the exceptions the
   * gateway distinguishes. `Crashed` is any other exception.
   */
  datatype Upstream<T> =
    | Responded(status: int, reason: string, body: Body<T>)
    | TimedOut(detail: string)
    | ConnectionFailed(detail: string)
    | RequestFailed(detail: string)
    | Crashed(detail: string)

  // ---------------------------------------------------------------------------
  // Bus arrivals
  // ---------------------------------------------------------------------------

  /**
   * The `EstimatedArrival` field: missing or empty, present but not ISO-8601,
   * or parsed. A parsed stamp is given as its distance from the current time
   * in whole seconds (the clock and the parser are not modelled).
   */
  datatype ArrivalStamp = StampMissing | StampInvalid | StampAt(secondsFromNow: int)

  /** A `NextBus` object: empty (or absent), or carrying its fields. */
  datatype RawBus = EmptyBus | RawBus(arrival: ArrivalStamp, load: string, feature: string, vehicleType: string)

  /** One element of the upstream `Services` array. */
  datatype RawService = RawService(serviceNo: string, operator: string, next1: RawBus, next2: RawBus, next3: RawBus)

  /** The arrival body: `Services` is `None` when the key is absent. */
  datatype ArrivalPayload = ArrivalPayload(services: Option<seq<RawService>>)

  /** The closed crowding map over the upstream `Load` code. */
  datatype Crowding = SeatsAvailable | StandingAvailable | LimitedStanding | UnknownLoad

  function CrowdingOf(code: string): Crowding {
    if code == "SEA" then SeatsAvailable
    else if code == "SDA" then StandingAvailable
    else if code == "LSD" then LimitedStanding
    else UnknownLoad
  }

  /** The text the gateway stores under `load`. */
  function CrowdingLabel(c: Crowding): string {
    match c
    case SeatsAvailable => "Seats Available"
    case StandingAvailable => "Standing Available"
    case LimitedStanding => "Limited Standing"
    case UnknownLoad => "Unknown"
  }

  /** The upstream code of each known crowding level. */
  function LoadCode(c: Crowding): Option<string> {
    match c
    case SeatsAvailable => Some("SEA")
    case StandingAvailable => Some("SDA")
    case LimitedStanding => Some("LSD")
    case UnknownLoad => None
  }

  /**
   * The load map is closed: exactly the three codes map to a known level,
   * each level is reached from its own code, and every other code is `Unknown`.
   */
  lemma CrowdingMapClosed(code: string, c: Crowding)
    ensures CrowdingOf(code) != UnknownLoad <==> code in {"SEA", "SDA", "LSD"}
    ensures LoadCode(c).Some? ==> CrowdingOf(LoadCode(c).value) == c
    ensures CrowdingOf(code) != UnknownLoad ==> LoadCode(CrowdingOf(code)) == Some(code)
  {
  }

  /** One formatted bus slot: `{'available': False}` or the full record. */
  datatype BusInfo =
    | Unavailable
    | Available(minutes: Option<int>, load: Crowding, feature: string, vehicleType: string)

  /**
   * `int(seconds / 60)`: the minute count truncated toward zero, so the
   * seconds lie within one minute of it on the side away from zero.
   */
  function MinutesUntil(seconds: int): (m: int)
    ensures seconds >= 0 ==> 0 <= m * 60 <= seconds < m * 60 + 60
    ensures seconds < 0 ==> m * 60 - 60 < seconds <= m * 60 <= 0
  {
    if seconds >= 0 then seconds / 60 else -((-seconds) / 60)
  }

  /**
   * Minutes are truncated toward zero: 90 s ahead is 1 minute, anything
   * under a minute either way is 0 ("arriving now"), 90 s past is -1.
   */
  lemma MinutesExamples()
    ensures MinutesUntil(90) == 1
    ensures MinutesUntil(59) == 0 && MinutesUntil(-59) == 0
    ensures MinutesUntil(-90) == -1
    ensures MinutesUntil(120) == 2
  {
  }

  /** A stamp in the past gives no positive minute count. */
  lemma PastStampNotAhead(seconds: int)
    requires seconds <= 0
    ensures MinutesUntil(seconds) <= 0
  {
  }

  /** `_format_bus_info`. */
  function FormatBusInfo(raw: RawBus): (b: BusInfo)
    ensures b.Unavailable? <==> raw.EmptyBus?
    ensures b.Available? ==> (b.minutes.None? <==> !raw.arrival.StampAt?)
    ensures b.Available? && raw.arrival.StampAt? ==> b.minutes == Some(MinutesUntil(raw.arrival.secondsFromNow))
    ensures b.Available? ==> b.load == CrowdingOf(raw.load)
  {
    match raw
    case EmptyBus => Unavailable
    case RawBus(arrival, load, feature, vehicleType) =>
      var minutes := if arrival.StampAt? then Some(MinutesUntil(arrival.secondsFromNow)) else None;
      Available(minutes, CrowdingOf(load), feature, vehicleType)
  }

  /** One formatted service: number, operator and three bus slots. */
  datatype ServiceInfo = ServiceInfo(serviceNo: string, operator: string, next1: BusInfo, next2: BusInfo, next3: BusInfo) {
    /** The three slots in order, as the tool iterates them. */
    function Slots(): seq<BusInfo> {
      [next1, next2, next3]
    }
  }

  function FormatService(s: RawService): ServiceInfo {
    ServiceInfo(s.serviceNo, s.operator, FormatBusInfo(s.next1), FormatBusInfo(s.next2), FormatBusInfo(s.next3))
  }

  /** Every upstream service, formatted, in upstream order. */
  function FormatServices(raw: seq<RawService>): (r: seq<ServiceInfo>)
    ensures |r| == |raw|
    ensures forall i :: 0 <= i < |raw| ==> r[i] == FormatService(raw[i])
  {
    seq(|raw|, i requires 0 <= i < |raw| => FormatService(raw[i]))
  }

  /**
   * The result of `get_bus_arrival`: an error record or the success record
   * (whose `status` field the gateway always sets to "success").
   */
  datatype ArrivalResult =
    | ArrivalError(kind: ErrorKind, message: string)
    | ArrivalData(stopCode: string, timestamp: string, services: seq<ServiceInfo>, status: string)

  /** `get_bus_arrival(code)` once the service answered with an HTTP status and a body. */
  function ArrivalFromResponse(code: string, now: string, status: int, body: Body<ArrivalPayload>): (r: ArrivalResult)
    ensures r.ArrivalData? <==> status == 200 && body.Parsed? && body.payload.services.Some?
    ensures r.ArrivalData? ==>
      var raw := body.payload.services.value;
      && r.status == "success" && r.stopCode == code && r.timestamp == now
      && |r.services| == |raw|
      && forall i :: 0 <= i < |raw| ==> r.services[i] == FormatService(raw[i])
    ensures status == 401 ==> r.ArrivalError? && r.kind == Auth
    ensures status == 429 ==> r.ArrivalError? && r.kind == RateLimit
    ensures status == 404 ==> r.ArrivalError? && r.kind == NotFound
    ensures status !in {200, 401, 404, 429} ==>
      r == ArrivalError(ApiError, "API request failed with status " + IntToString(status))
    ensures status == 200 && body.Unparsable? ==> r.ArrivalError? && r.kind == Json
    ensures status == 200 && body.Parsed? && body.payload.services.None? ==>
      r.ArrivalError? && r.kind == InvalidFormat
  {
    if status == 401 then
      ArrivalError(Auth, "API authentication failed. Please check your API key.")
    else if status == 429 then
      ArrivalError(RateLimit, "API rate limit exceeded. Please wait before retrying.")
    else if status == 404 then
      ArrivalError(NotFound, "Bus stop " + code + " not found in API.")
    else if status != 200 then
      ArrivalError(ApiError, "API request failed with status " + IntToString(status))
    else
      match body
      case Unparsable(detail) =>
        ArrivalError(Json, "Invalid JSON response for stop " + code + ": " + detail)
      case Parsed(payload) =>
        match payload.services
        case None => ArrivalError(InvalidFormat, "Invalid API response format for stop " + code)
        case Some(raw) => ArrivalData(code, now, FormatServices(raw), "success")
  }

  /** `get_bus_arrival(code)` given the upstream outcome and the current time as text. */
  function GetBusArrival(code: string, now: string, up: Upstream<ArrivalPayload>): (r: ArrivalResult)
    ensures r.ArrivalData? <==>
      up.Responded? && up.status == 200 && up.body.Parsed? && up.body.payload.services.Some?
    ensures up.Responded? ==> r == ArrivalFromResponse(code, now, up.status, up.body)
    ensures up.TimedOut? ==> r.ArrivalError? && r.kind == Timeout
    ensures up.ConnectionFailed? ==> r.ArrivalError? && r.kind == Connection
    ensures up.RequestFailed? ==> r == ArrivalError(Request, "API request failed for stop " + code + ": " + up.detail)
    ensures up.Crashed? ==> r == ArrivalError(Unknown, "Unexpected error for stop " + code + ": " + up.detail)
  {
    match up
    case Responded(status, _, body) => ArrivalFromResponse(code, now, status, body)
    case TimedOut(_) =>
      ArrivalError(Timeout, "Request timeout for bus stop " + code + ". Please try again.")
    case ConnectionFailed(_) =>
      ArrivalError(Connection, "Connection error for bus stop " + code + ". Please check your internet connection.")
    case RequestFailed(detail) =>
      ArrivalError(Request, "API request failed for stop " + code + ": " + detail)
    case Crashed(detail) =>
      ArrivalError(Unknown, "Unexpected error for stop " + code + ": " + detail)
  }

  // ---------------------------------------------------------------------------
  // Carpark availability
  // ---------------------------------------------------------------------------

  /** One carpark record (the upstream record and the formatted one carry the same fields). */
  datatype Carpark = Carpark(
    id: string, area: string, development: string, location: string,
    availableLots: int, lotType: string, agency: string)

  /** The carpark body: `value` is `None` when the key is absent. */
  datatype CarparkPayload = CarparkPayload(value: Option<seq<Carpark>>)

  datatype CarparkResult =
    | CarparkError(kind: ErrorKind, message: string)
    | CarparkData(timestamp: string, carparks: seq<Carpark>)

  /**
   * The post-fetch filter: a given (non-empty) id must equal the record's id,
   * and a given (non-empty) area must occur, case-insensitively, in the
   * record's development name.
   */
  predicate KeepCarpark(c: Carpark, id: Option<string>, area: Option<string>) {
    && (!Truthy(id) || c.id == id.value)
    && (!Truthy(area) || Contains(Lower(c.development), Lower(area.value)))
  }

  /** The filter loop of `get_carpark_availability`. */
  function FilterCarparks(cs: seq<Carpark>, id: Option<string>, area: Option<string>): seq<Carpark> {
    Filter(cs, c => KeepCarpark(c, id, area))
  }

  /**
   * The carpark list returned is the upstream list narrowed, order kept: each
   * record kept satisfies both filters, and each record satisfying both is
   * kept as often as it occurs upstream.
   */
  lemma FilterCarparksSpec(cs: seq<Carpark>, id: Option<string>, area: Option<string>)
    ensures var r := FilterCarparks(cs, id, area);
      && IsSubsequence(r, cs)
      && (forall c :: c in r <==> c in cs && KeepCarpark(c, id, area))
      && (forall c :: KeepCarpark(c, id, area) ==> multiset(r)[c] == multiset(cs)[c])
      && (!Truthy(id) && !Truthy(area) ==> r == cs)
  {
    var r := FilterCarparks(cs, id, area);
    var keep := c => KeepCarpark(c, id, area);
    assert forall c :: multiset(r)[c] == if keep(c) then multiset(cs)[c] else 0;
    if !Truthy(id) && !Truthy(area) {
      assert multiset(r) == multiset(cs);
      NoDropSubsequence(r, cs);
    }
  }

  /** A subsequence with all the elements is the whole sequence. */
  lemma {:induction false} NoDropSubsequence<T>(a: seq<T>, b: seq<T>)
    requires IsSubsequence(a, b) && |a| == |b|
    ensures a == b
    decreases |b|
  {
    if a != [] {
      if a[0] == b[0] {
        NoDropSubsequence(a[1..], b[1..]);
        assert a == [a[0]] + a[1..];
        assert b == [b[0]] + b[1..];
      } else {
        SubsequenceNotLonger(a, b[1..]);
      }
    }
  }

  lemma {:induction false} SubsequenceNotLonger<T>(a: seq<T>, b: seq<T>)
    requires IsSubsequence(a, b)
    ensures |a| <= |b|
    decreases |b|
  {
    if a != [] {
      if a[0] == b[0] {
        SubsequenceNotLonger(a[1..], b[1..]);
      } else {
        SubsequenceNotLonger(a, b[1..]);
      }
    }
  }

  /**
   * `get_carpark_availability(id, area)`. The anticipated failures become an
   * error record; any other exception is not caught here and escapes as a
   * `Failure`.
   */
  function GetCarparkAvailability(id: Option<string>, area: Option<string>, now: string, up: Upstream<CarparkPayload>)
    : (r: Result<CarparkResult>)
    ensures r.Failure? <==> up.Crashed?
    ensures r.Success? && r.value.CarparkData? ==>
      && up.Responded? && !(400 <= up.status < 600) && up.body.Parsed?
      && r.value.timestamp == now
      && r.value.carparks == FilterCarparks(up.body.payload.value.GetOr([]), id, area)
    ensures up.Responded? && 400 <= up.status < 600 ==>
      r == Success(CarparkError(Request, "API request failed: " + up.reason))
    ensures (up.TimedOut? || up.ConnectionFailed? || up.RequestFailed?) ==>
      r == Success(CarparkError(Request, "API request failed: " + up.detail))
    ensures up.Responded? && !(400 <= up.status < 600) && up.body.Unparsable? ==>
      r == Success(CarparkError(Json, "Invalid JSON response: " + up.body.detail))
    ensures up.Responded? && !(400 <= up.status < 600) && up.body.Parsed? ==>
      r.Success? && r.value.CarparkData?
  {
    match up
    case Responded(status, reason, body) =>
      if 400 <= status < 600 then
        Success(CarparkError(Request, "API request failed: " + reason))
      else (
        match body
        case Unparsable(detail) => Success(CarparkError(Json, "Invalid JSON response: " + detail))
        case Parsed(payload) =>
          Success(CarparkData(now, FilterCarparks(payload.value.GetOr([]), id, area))))
    case TimedOut(detail) => Success(CarparkError(Request, "API request failed: " + detail))
    case ConnectionFailed(detail) => Success(CarparkError(Request, "API request failed: " + detail))
    case RequestFailed(detail) => Success(CarparkError(Request, "API request failed: " + detail))
    case Crashed(detail) => Failure(detail)
  }
}

=== FILE: matcher.dfy ===
/**
 * The bus-stop matcher: scores every stop of the catalog against a free-text
 * location query with a tiered heuristic and returns a ranked shortlist.
 */
module Matcher {
  import opened Text
  import opened Sequences

  /** A similarity ratio as `difflib.SequenceMatcher(...).ratio()` returns it. */
  type Ratio = r: real | 0.0 <= r <= 1.0

  /**
   * `SequenceMatcher(None, a, b).ratio()`. Its internals are not modelled:
   * any function into [0, 1] may stand for it.
   */
  type RatioOracle = (string, string) -> Ratio

  /** A catalog entry: `BusStopCode`, `RoadName`, `Description`. */
  datatype Stop = Stop(code: string, roadName: string, description: string)

  /** The field the fallback tier credits for its similarity score. */
  datatype Field = RoadName | Description

  /** Why a stop scored what it scored, one variant per tier. */
  datatype Reason =
    | ExactCode(code: string)
    | Contained(query: string, roadName: string, description: string)
    | BestIn(field: Field, score: real)

  /** A scored stop: `{'bus_stop', 'similarity_score', 'match_reason'}`. */
  datatype Match = Match(stop: Stop, score: real, reason: Reason)

  const ExactScore: real := 1.0
  const ContainedScore: real := 0.9
  /** Weight of the word-overlap ratio in the fallback tier. */
  const WordBoost: real := 0.8
  /** A word pair whose ratio exceeds this counts as a word match. */
  const WordSimilarity: real := 0.8
  /** Query words of this length or shorter never count as matches. */
  const ShortWord: nat := 2
  /** Scores at or below this are discarded. */
  const ScoreFloor: real := 0.1

  // ---------------------------------------------------------------------------
  // Scoring one stop (`_calculate_similarity_score`)
  // ---------------------------------------------------------------------------

  /** The normalised road name and description joined by a space, stripped. */
  function CombinedText(road: string, description: string): string {
    Strip(road + " " + description)
  }

  /** Some candidate word contains `q` or is more than 0.8 similar to it. */
  predicate WordHit(q: string, candidates: seq<string>, ratio: RatioOracle) {
    exists i :: 0 <= i < |candidates| && (Contains(candidates[i], q) || ratio(q, candidates[i]) > WordSimilarity)
  }

  /** A query word counts towards the boost: it is longer than two characters and hits. */
  predicate CountsAsHit(q: string, candidates: seq<string>, ratio: RatioOracle) {
    |q| > ShortWord && WordHit(q, candidates, ratio)
  }

  /** How many query words longer than two characters hit some candidate word (each at most once). */
  function WordHits(queryWords: seq<string>, candidates: seq<string>, ratio: RatioOracle): (n: nat)
    ensures n <= |queryWords|
    ensures n == |queryWords| <==> forall i :: 0 <= i < |queryWords| ==> CountsAsHit(queryWords[i], candidates, ratio)
    ensures n == 0 <==> forall i :: 0 <= i < |queryWords| ==> !CountsAsHit(queryWords[i], candidates, ratio)
  {
    if queryWords == [] then 0
    else
      var q := queryWords[0];
      var rest := WordHits(queryWords[1..], candidates, ratio);
      assert forall i :: 1 <= i < |queryWords| ==> queryWords[i] == queryWords[1..][i - 1];
      (if CountsAsHit(q, candidates, ratio) then 1 else 0) + rest
  }

  /** The query words that count towards the boost, in query order. */
  function HitWords(queryWords: seq<string>, candidates: seq<string>, ratio: RatioOracle): seq<string> {
    Filter(queryWords, (q: string) => CountsAsHit(q, candidates, ratio))
  }

  /** `word_matches` is the number of query words that count, each once. */
  lemma {:induction false} WordHitsCount(queryWords: seq<string>, candidates: seq<string>, ratio: RatioOracle)
    ensures WordHits(queryWords, candidates, ratio) == |HitWords(queryWords, candidates, ratio)|
  {
    if queryWords != [] {
      WordHitsCount(queryWords[1..], candidates, ratio);
    }
  }

  /** The word-overlap boost, `word_matches / len(query_words) * 0.8`, for a non-empty word list. */
  function Boost(queryWords: seq<string>, candidates: seq<string>, ratio: RatioOracle): (b: real)
    requires |queryWords| > 0
    ensures 0.0 <= b <= WordBoost
    ensures b == WordBoost <==> forall i :: 0 <= i < |queryWords| ==> CountsAsHit(queryWords[i], candidates, ratio)
    ensures b == 0.0 <==> forall i :: 0 <= i < |queryWords| ==> !CountsAsHit(queryWords[i], candidates, ratio)
  {
    ShareOfBoost(WordHits(queryWords, candidates, ratio), |queryWords|)
  }

  /** `hits / words * 0.8` for at most `words` hits out of a positive `words`. */
  function ShareOfBoost(hits: nat, words: nat): (b: real)
    requires 0 < words && hits <= words
    ensures 0.0 <= b <= WordBoost
    ensures b == WordBoost <==> hits == words
    ensures b == 0.0 <==> hits == 0
  {
    var share := hits as real / words as real;
    assert share <= 1.0 by {
      assert hits as real <= words as real;
    }
    assert share == 1.0 <==> hits == words;
    share * WordBoost
  }

  function RealMax(a: real, b: real): real {
    if a >= b then a else b
  }

  /**
   * The third tier: the better of the two field ratios, raised to the word
   * boost when that is larger. The field named is the road name only when its
   * ratio is strictly larger, so a tie names the description.
   */
  function FallbackScore(q: string, road: string, description: string, ratio: RatioOracle): (m: (real, Field))
    ensures 0.0 <= m.0 <= 1.0
    ensures m.0 >= ratio(q, road) && m.0 >= ratio(q, description)
  {
    var roadRatio := ratio(q, road);
    var descRatio := ratio(q, description);
    var best := RealMax(roadRatio, descRatio);
    var field := if roadRatio > descRatio then RoadName else Description;
    var words := Words(q);
    var score := if |words| > 0 then RealMax(best, Boost(words, Words(CombinedText(road, description)), ratio)) else best;
    (score, field)
  }

  /** `_calculate_similarity_score(query, stop)`. */
  function ScoreStop(query: string, stop: Stop, ratio: RatioOracle): (m: Match)
    ensures m.stop == stop
    ensures 0.0 <= m.score <= 1.0
  {
    TierScore(query, Normalize(query), Normalize(stop.roadName), Normalize(stop.description), stop, ratio)
  }

  /** The tiers, applied to the normalised query `q`, road name and description. */
  function TierScore(query: string, q: string, road: string, description: string, stop: Stop, ratio: RatioOracle)
    : (m: Match)
    ensures m.stop == stop
    ensures 0.0 <= m.score <= 1.0
  {
    if q == Lower(stop.code) then
      Match(stop, ExactScore, ExactCode(stop.code))
    else if Contains(CombinedText(road, description), q) then
      Match(stop, ContainedScore, Contained(query, road, description))
    else
      var (score, field) := FallbackScore(q, road, description, ratio);
      Match(stop, score, BestIn(field, score))
  }

  /**
   * The tiers in order of precedence: an exact code match scores 1.0 and is
   * checked before containment; otherwise a query contained in the combined
   * road-and-description text scores 0.9; otherwise the score is the larger of
   * the best field ratio and the word boost, which never exceeds 0.8.
   */
  lemma ScoreTiers(query: string, stop: Stop, ratio: RatioOracle)
    ensures var q := Normalize(query);
      var road := Normalize(stop.roadName);
      var description := Normalize(stop.description);
      var m := ScoreStop(query, stop, ratio);
      && (m.reason.ExactCode? <==> q == Lower(stop.code))
      && (m.reason.ExactCode? ==> m.score == 1.0 && m.reason.code == stop.code)
      && (m.reason.Contained? <==> q != Lower(stop.code) && Contains(CombinedText(road, description), q))
      && (m.reason.Contained? ==> m.score == 0.9)
      && (m.reason.BestIn? ==>
            && m.reason.score == m.score
            && m.score == RealMax(RealMax(ratio(q, road), ratio(q, description)),
                                  Boost(Words(q), Words(CombinedText(road, description)), ratio))
            && (m.reason.field == RoadName <==> ratio(q, road) > ratio(q, description)))
  {
    WordsOfNormalize(query);
    TierFacts(query, Normalize(query), Normalize(stop.roadName), Normalize(stop.description), stop, ratio);
  }

  /** `TierScore` tier by tier, for a query that is empty or has words. */
  lemma TierFacts(query: string, q: string, road: string, description: string, stop: Stop, ratio: RatioOracle)
    requires q == "" <==> Words(q) == []
    ensures var m := TierScore(query, q, road, description, stop, ratio);
      && (m.reason.ExactCode? <==> q == Lower(stop.code))
      && (m.reason.ExactCode? ==> m.score == 1.0 && m.reason.code == stop.code)
      && (m.reason.Contained? <==> q != Lower(stop.code) && Contains(CombinedText(road, description), q))
      && (m.reason.Contained? ==> m.score == 0.9)
      && (m.reason.BestIn? ==>
            && m.reason.score == m.score
            && m.score == RealMax(RealMax(ratio(q, road), ratio(q, description)),
                                  Boost(Words(q), Words(CombinedText(road, description)), ratio))
            && (m.reason.field == RoadName <==> ratio(q, road) > ratio(q, description)))
  {
    ContainsEmpty(CombinedText(road, description));
    if q != Lower(stop.code) && !Contains(CombinedText(road, description), q) {
      assert q != "";
      FallbackTier(q, road, description, ratio);
    }
  }

  /** With at least one query word, the fallback score is the larger of the better field ratio and the word boost. */
  lemma FallbackTier(q: string, road: string, description: string, ratio: RatioOracle)
    requires Words(q) != []
    ensures var m := FallbackScore(q, road, description, ratio);
      && m.0 == RealMax(RealMax(ratio(q, road), ratio(q, description)),
                        Boost(Words(q), Words(CombinedText(road, description)), ratio))
      && (m.1 == RoadName <==> ratio(q, road) > ratio(q, description))
  {
  }

  lemma ContainsEmpty(s: string)
    ensures Contains(s, "")
  {
  }

  // ---------------------------------------------------------------------------
  // Ranking (`find_matching_bus_stops`)
  // ---------------------------------------------------------------------------

  /** Python `not q or not q.strip()`: the query is empty or only whitespace. */
  predicate IsBlank(query: string) {
    query == "" || Strip(query) == ""
  }

  /** Every stop of the catalog scored against the query, in catalog order. */
  function ScoreAll(query: string, stops: seq<Stop>, ratio: RatioOracle): (ms: seq<Match>)
    ensures |ms| == |stops|
    ensures forall i :: 0 <= i < |stops| ==> ms[i] == ScoreStop(query, stops[i], ratio)
  {
    seq(|stops|, i requires 0 <= i < |stops| => ScoreStop(query, stops[i], ratio))
  }

  /** The matches scoring above the floor, in their original order. */
  function AboveFloor(ms: seq<Match>): (cs: seq<Match>)
    ensures forall x :: x in cs <==> x in ms && x.score > ScoreFloor
    ensures IsSubsequence(cs, ms)
  {
    Filter(ms, (m: Match) => m.score > ScoreFloor)
  }

  /** Scores never increase along the sequence. */
  predicate SortedByScore(ms: seq<Match>) {
    forall i, j :: 0 <= i < j < |ms| ==> ms[i].score >= ms[j].score
  }

  /** The matches of exactly score `v`, in sequence order. */
  function WithScore(ms: seq<Match>, v: real): seq<Match> {
    if ms == [] then []
    else (if ms[0].score == v then [ms[0]] else []) + WithScore(ms[1..], v)
  }

  /**
   * Dropping the matches at or below the floor keeps, for every score above
   * it, all matches of that score in their original order.
   */
  lemma {:induction false} WithScoreAboveFloor(ms: seq<Match>, v: real)
    requires v > ScoreFloor
    ensures WithScore(AboveFloor(ms), v) == WithScore(ms, v)
  {
    if ms != [] {
      WithScoreAboveFloor(ms[1..], v);
      var rest := AboveFloor(ms[1..]);
      if ms[0].score > ScoreFloor {
        assert AboveFloor(ms) == [ms[0]] + rest;
        assert ([ms[0]] + rest)[1..] == rest;
      } else {
        assert AboveFloor(ms) == rest;
      }
    }
  }

  /** No match of score `v` means nothing is selected for `v`. */
  lemma {:induction false} WithScoreAbsent(ms: seq<Match>, v: real)
    requires forall i :: 0 <= i < |ms| ==> ms[i].score != v
    ensures WithScore(ms, v) == []
  {
    if ms != [] {
      WithScoreAbsent(ms[1..], v);
    }
  }

  /** Insert `m` before the first element whose score is not larger than its own. */
  function InsertDescending(m: Match, ms: seq<Match>): (r: seq<Match>)
    ensures multiset(r) == multiset(ms) + multiset{m}
  {
    if ms == [] || ms[0].score <= m.score then [m] + ms
    else
      assert ms == [ms[0]] + ms[1..];
      [ms[0]] + InsertDescending(m, ms[1..])
  }

  lemma {:induction false} InsertKeepsSorted(m: Match, ms: seq<Match>)
    requires SortedByScore(ms)
    ensures SortedByScore(InsertDescending(m, ms))
  {
    if ms != [] && ms[0].score > m.score {
      var rest := InsertDescending(m, ms[1..]);
      InsertKeepsSorted(m, ms[1..]);
      forall k | 0 <= k < |rest|
        ensures ms[0].score >= rest[k].score
      {
        assert rest[k] in multiset(rest);
        if rest[k] != m {
          assert rest[k] in multiset(ms[1..]);
          var j :| 0 <= j < |ms[1..]| && ms[1..][j] == rest[k];
          assert ms[j + 1] == rest[k];
        }
      }
    }
  }

  lemma SplitFirstMultiset(ms: seq<Match>)
    requires ms != []
    ensures multiset(ms) == multiset(ms[1..]) + multiset{ms[0]}
  {
    assert ms == [ms[0]] + ms[1..];
  }

  /** `list.sort(key=score, reverse=True)`: Python's stable sort, descending. */
  function SortByScore(ms: seq<Match>): (r: seq<Match>)
    ensures multiset(r) == multiset(ms)
    ensures SortedByScore(r)
  {
    if ms == [] then []
    else
      var rest := SortByScore(ms[1..]);
      InsertKeepsSorted(ms[0], rest);
      SplitFirstMultiset(ms);
      InsertDescending(ms[0], rest)
  }

  lemma {:induction false} WithScoreInsert(m: Match, ms: seq<Match>, v: real)
    ensures WithScore(InsertDescending(m, ms), v) == (if m.score == v then [m] else []) + WithScore(ms, v)
  {
    if ms == [] || ms[0].score <= m.score {
      assert ([m] + ms)[1..] == ms;
    } else {
      var rest := InsertDescending(m, ms[1..]);
      WithScoreInsert(m, ms[1..], v);
      assert ([ms[0]] + rest)[1..] == rest;
    }
  }

  /**
   * The sort is stable: for every score value, the matches with that score
   * appear in the output in the same order as in the input.
   */
  lemma {:induction false} SortIsStable(ms: seq<Match>, v: real)
    ensures WithScore(SortByScore(ms), v) == WithScore(ms, v)
  {
    if ms != [] {
      SortIsStable(ms[1..], v);
      WithScoreInsert(ms[0], SortByScore(ms[1..]), v);
    }
  }

  /** A prefix keeps, for every score, a prefix of the matches with that score. */
  lemma {:induction false} WithScorePrefix(ms: seq<Match>, k: nat, v: real)
    requires k <= |ms|
    ensures WithScore(ms[..k], v) <= WithScore(ms, v)
  {
    if k > 0 {
      assert ms[..k][1..] == ms[1..][..k - 1];
      WithScorePrefix(ms[1..], k - 1, v);
    }
  }

  /** Python's `s[:k]`, including its meaning for negative `k`. */
  function SliceTo<T>(s: seq<T>, k: int): (r: seq<T>)
    ensures k >= 0 ==> |r| == if k < |s| then k else |s|
    ensures k < 0 ==> |r| == if |s| + k > 0 then |s| + k else 0
    ensures r <= s
  {
    var n := if k >= 0 then (if k < |s| then k else |s|) else (if |s| + k > 0 then |s| + k else 0);
    s[..n]
  }

  /** Keep the scores above the floor, stable-sort them descending, truncate to `top_k`. */
  function Rank(ms: seq<Match>, topK: int): seq<Match> {
    SliceTo(SortByScore(AboveFloor(ms)), topK)
  }

  /**
   * The ranked list is exactly as long as `top_k` cuts the matches above the
   * floor, and holds them with their multiplicities: all of them when the cut
   * keeps everything.
   */
  lemma RankCount(ms: seq<Match>, topK: int)
    ensures |Rank(ms, topK)| == |SliceTo(AboveFloor(ms), topK)|
    ensures multiset(Rank(ms, topK)) <= multiset(AboveFloor(ms))
    ensures |Rank(ms, topK)| == |AboveFloor(ms)| ==> multiset(Rank(ms, topK)) == multiset(AboveFloor(ms))
  {
    var kept := AboveFloor(ms);
    var sorted := SortByScore(kept);
    assert |sorted| == |multiset(sorted)| == |multiset(kept)| == |kept|;
    var r := Rank(ms, topK);
    assert sorted == r + sorted[|r|..];
    assert multiset(sorted) == multiset(r) + multiset(sorted[|r|..]);
  }

  lemma RankMembers(ms: seq<Match>, topK: int)
    ensures forall x :: x in Rank(ms, topK) ==> x in ms && x.score > ScoreFloor
  {
    var sorted := SortByScore(AboveFloor(ms));
    forall x | x in Rank(ms, topK)
      ensures x in ms && x.score > ScoreFloor
    {
      assert x in sorted;
      assert x in multiset(sorted);
    }
  }

  lemma RankKeepsTies(ms: seq<Match>, topK: int, v: real)
    ensures WithScore(Rank(ms, topK), v) <= WithScore(AboveFloor(ms), v)
  {
    var sorted := SortByScore(AboveFloor(ms));
    var r := Rank(ms, topK);
    assert r == sorted[..|r|];
    WithScorePrefix(sorted, |r|, v);
    SortIsStable(AboveFloor(ms), v);
  }

  lemma RankOutranks(ms: seq<Match>, topK: int, x: Match, i: int)
    requires x in ms && x !in Rank(ms, topK) && 0 <= i < |Rank(ms, topK)|
    ensures x.score <= Rank(ms, topK)[i].score
  {
    var sorted := SortByScore(AboveFloor(ms));
    var r := Rank(ms, topK);
    assert r == sorted[..|r|];
    assert r[i] == sorted[i];
    if x.score > ScoreFloor {
      assert x in multiset(sorted);
      var j :| 0 <= j < |sorted| && sorted[j] == x;
      assert forall k :: 0 <= k < |r| ==> r[k] == sorted[k];
    } else {
      assert r[i] in multiset(sorted);
    }
  }

  lemma RankComplete(ms: seq<Match>, topK: int)
    requires topK >= 0 && |Rank(ms, topK)| < topK
    ensures forall x :: x in ms && x.score > ScoreFloor ==> x in Rank(ms, topK)
  {
    var sorted := SortByScore(AboveFloor(ms));
    assert Rank(ms, topK) == sorted;
    forall x | x in ms && x.score > ScoreFloor
      ensures x in sorted
    {
      assert x in multiset(AboveFloor(ms));
    }
  }

  /** For every score, the kept entries of that score are the first ones of that score in `ms`. */
  lemma RankKeepsOrder(ms: seq<Match>, topK: int, v: real)
    ensures WithScore(Rank(ms, topK), v) <= WithScore(ms, v)
  {
    RankKeepsTies(ms, topK, v);
    if v > ScoreFloor {
      WithScoreAboveFloor(ms, v);
    } else {
      var r := Rank(ms, topK);
      RankMembers(ms, topK);
      assert forall i :: 0 <= i < |r| ==> r[i] in r;
      WithScoreAbsent(r, v);
    }
  }

  /**
   * What ranking promises of any scored list: every entry comes from the list
   * with a score above 0.1; scores never increase; for every score value the
   * entries kept are the first ones of that score in list order (ties keep
   * their order); at most `top_k` entries; nothing left out outranks anything
   * kept; and a result shorter than `top_k` keeps every score above 0.1.
   */
  lemma RankSpec(ms: seq<Match>, topK: int)
    ensures var r := Rank(ms, topK);
      && (forall x :: x in r ==> x in ms && x.score > ScoreFloor)
      && SortedByScore(r)
      && (forall v :: WithScore(r, v) <= WithScore(ms, v))
      && (topK >= 0 ==> |r| <= topK)
      && (forall x, i :: x in ms && x !in r && 0 <= i < |r| ==> x.score <= r[i].score)
      && (topK >= 0 && |r| < topK ==> forall x :: x in ms && x.score > ScoreFloor ==> x in r)
      && |r| == |SliceTo(AboveFloor(ms), topK)|
      && multiset(r) <= multiset(AboveFloor(ms))
      && (|r| == |AboveFloor(ms)| ==> multiset(r) == multiset(AboveFloor(ms)))
  {
    var r := Rank(ms, topK);
    RankMembers(ms, topK);
    RankCount(ms, topK);
    forall v
      ensures WithScore(r, v) <= WithScore(ms, v)
    {
      RankKeepsOrder(ms, topK, v);
    }
    forall x, i | x in ms && x !in r && 0 <= i < |r|
      ensures x.score <= r[i].score
    {
      RankOutranks(ms, topK, x, i);
    }
    if topK >= 0 && |r| < topK {
      RankComplete(ms, topK);
    }
    var sorted := SortByScore(AboveFloor(ms));
    assert r == sorted[..|r|];
  }

  /** `find_matching_bus_stops(query, top_k)` over the catalog `stops`. */
  function FindMatches(stops: seq<Stop>, query: string, topK: int, ratio: RatioOracle): seq<Match> {
    if |stops| == 0 || IsBlank(query) then []
    else Rank(ScoreAll(query, stops, ratio), topK)
  }

  /**
   * The ranked shortlist: empty for an empty catalog or blank query; otherwise
   * every entry is some catalog stop's own score, above 0.1; scores never
   * increase; ties keep catalog order; at most `top_k` entries; no stop left
   * out outranks an entry returned; and for a non-blank query a shortlist
   * shorter than `top_k` holds every stop scoring above 0.1.
   */
  lemma FindMatchesSpec(stops: seq<Stop>, query: string, topK: int, ratio: RatioOracle)
    ensures var r := FindMatches(stops, query, topK, ratio);
      && (|stops| == 0 || IsBlank(query) ==> r == [])
      && (forall i :: 0 <= i < |r| ==>
            r[i].stop in stops && r[i] == ScoreStop(query, r[i].stop, ratio) && r[i].score > ScoreFloor)
      && SortedByScore(r)
      && (topK >= 0 ==> |r| <= topK)
      && (forall v :: WithScore(r, v) <= WithScore(ScoreAll(query, stops, ratio), v))
      && (forall s, i :: s in stops && ScoreStop(query, s, ratio) !in r && 0 <= i < |r| ==>
            ScoreStop(query, s, ratio).score <= r[i].score)
      && (!IsBlank(query) && topK >= 0 && |r| < topK ==>
            forall s :: s in stops && ScoreStop(query, s, ratio).score > ScoreFloor ==> ScoreStop(query, s, ratio) in r)
      && (|stops| > 0 && !IsBlank(query) ==>
            var kept := AboveFloor(ScoreAll(query, stops, ratio));
            && |r| == |SliceTo(kept, topK)|
            && multiset(r) <= multiset(kept)
            && (|r| == |kept| ==> multiset(r) == multiset(kept)))
  {
    var r := FindMatches(stops, query, topK, ratio);
    if |stops| > 0 && !IsBlank(query) {
      var ms := ScoreAll(query, stops, ratio);
      assert r == Rank(ms, topK);
      RankSpec(ms, topK);
      ScoredAreCatalogStops(stops, query, ratio);
      CatalogStopsAreScored(stops, query, ratio);
      forall i | 0 <= i < |r|
        ensures r[i].stop in stops && r[i] == ScoreStop(query, r[i].stop, ratio) && r[i].score > ScoreFloor
      {
        assert r[i] in r;
      }
    }
  }

  /** Each score in the scored catalog is some catalog stop's own score. */
  lemma ScoredAreCatalogStops(stops: seq<Stop>, query: string, ratio: RatioOracle)
    ensures forall x :: x in ScoreAll(query, stops, ratio) ==> x.stop in stops && x == ScoreStop(query, x.stop, ratio)
  {
    var ms := ScoreAll(query, stops, ratio);
    forall x | x in ms
      ensures x.stop in stops && x == ScoreStop(query, x.stop, ratio)
    {
      var k :| 0 <= k < |ms| && ms[k] == x;
      assert x.stop == stops[k];
    }
  }

  /** Every catalog stop's score is in the scored catalog. */
  lemma CatalogStopsAreScored(stops: seq<Stop>, query: string, ratio: RatioOracle)
    ensures forall s :: s in stops ==> ScoreStop(query, s, ratio) in ScoreAll(query, stops, ratio)
  {
    var ms := ScoreAll(query, stops, ratio);
    forall s | s in stops
      ensures ScoreStop(query, s, ratio) in ms
    {
      var k :| 0 <= k < |stops| && stops[k] == s;
      assert ms[k] == ScoreStop(query, s, ratio);
    }
  }

  /**
   * A query that normalises to a catalog stop's code (compared lower-case)
   * puts a score of 1.0 at the top of the shortlist.
   */
  lemma ExactCodeRanksFirst(stops: seq<Stop>, query: string, topK: int, ratio: RatioOracle, stop: Stop)
    requires stop in stops && topK >= 1
    requires stop.code != "" && Normalize(query) == Lower(stop.code)
    ensures var r := FindMatches(stops, query, topK, ratio);
      |r| >= 1 && r[0].score == ExactScore
  {
    ExactCodeNotBlank(query, stop.code);
    var ms := ScoreAll(query, stops, ratio);
    var m := ScoreStop(query, stop, ratio);
    ExactMatchScored(stops, query, ratio, stop);
    ScoresAtMostExact(query, stops, ratio);
    assert FindMatches(stops, query, topK, ratio) == Rank(ms, topK);
    RankTop(ms, topK, m);
  }

  /** A query that normalises to a non-empty code is not blank. */
  lemma ExactCodeNotBlank(query: string, code: string)
    requires code != "" && Normalize(query) == Lower(code)
    ensures !IsBlank(query)
  {
    StripEmptyIffBlank(query);
    NormalizeBlank(query);
  }

  /** The stop whose code the query names is scored 1.0 among the catalog's scores. */
  lemma ExactMatchScored(stops: seq<Stop>, query: string, ratio: RatioOracle, stop: Stop)
    requires stop in stops && Normalize(query) == Lower(stop.code)
    ensures ScoreStop(query, stop, ratio) in ScoreAll(query, stops, ratio)
    ensures ScoreStop(query, stop, ratio).score == ExactScore
  {
    var k :| 0 <= k < |stops| && stops[k] == stop;
    assert ScoreAll(query, stops, ratio)[k] == ScoreStop(query, stop, ratio);
  }

  /** No score exceeds 1.0. */
  lemma ScoresAtMostExact(query: string, stops: seq<Stop>, ratio: RatioOracle)
    ensures forall y :: y in ScoreAll(query, stops, ratio) ==> y.score <= ExactScore
  {
    var ms := ScoreAll(query, stops, ratio);
    forall y | y in ms
      ensures y.score <= ExactScore
    {
      var k :| 0 <= k < |ms| && ms[k] == y;
    }
  }

  /** A match above the floor that no other match outscores puts its score first in any non-empty cut. */
  lemma RankTop(ms: seq<Match>, topK: int, x: Match)
    requires x in ms && x.score > ScoreFloor && topK >= 1
    requires forall y :: y in ms ==> y.score <= x.score
    ensures |Rank(ms, topK)| >= 1 && Rank(ms, topK)[0].score == x.score
  {
    var cs := AboveFloor(ms);
    var sorted := SortByScore(cs);
    assert x in multiset(sorted);
    var j :| 0 <= j < |sorted| && sorted[j] == x;
    var r := Rank(ms, topK);
    assert r == sorted[..|r|];
    assert r[0] == sorted[0];
    assert sorted[0] in multiset(cs);
  }

  // ---------------------------------------------------------------------------
  // `find_bus_stops_for_location`
  // ---------------------------------------------------------------------------

  /** The projection `find_bus_stops_for_location` returns for each match. */
  datatype StopHit = StopHit(code: string, roadName: string, description: string, score: real, reason: Reason)

  function ToHit(m: Match): StopHit {
    StopHit(m.stop.code, m.stop.roadName, m.stop.description, m.score, m.reason)
  }

  /** The matches re-shaped field by field, order and scores unchanged. */
  function FindStopsForLocation(stops: seq<Stop>, query: string, topK: int, ratio: RatioOracle): (hits: seq<StopHit>)
    ensures var ms := FindMatches(stops, query, topK, ratio);
      && |hits| == |ms|
      && forall i :: 0 <= i < |hits| ==>
        && hits[i].code == ms[i].stop.code
        && hits[i].roadName == ms[i].stop.roadName && hits[i].description == ms[i].stop.description
        && hits[i].score == ms[i].score && hits[i].reason == ms[i].reason
  {
    var ms := FindMatches(stops, query, topK, ratio);
    seq(|ms|, i requires 0 <= i < |ms| => ToHit(ms[i]))
  }
}

=== FILE: optional.dfy ===
/** Small failure-carrying wrappers shared by every module of the model. */
module Optional {

  /** A value that may be absent: Python's `None` versus a present value. */
  datatype Option<+T> = None | Some(value: T) {
    /** The value, or `default` when absent: Python's `d.get(key, default)`. */
    function GetOr(default: T): T {
      match this
      case Some(v) => v
      case None => default
    }
  }

  /** The outcome of a step that may raise: `Failure` carries the exception text. */
  datatype Result<+R> = Success(value: R) | Failure(error: string)

  /** Python truthiness of an optional string: present and non-empty. */
  predicate Truthy(s: Option<string>) {
    s.Some? && s.value != ""
  }
}

=== FILE: orchestrator.dfy ===
/**
 * One turn of the bot: ask the language model with the day's history, run
 * the tools it calls, ask it again with their results, and record the
 * exchange. The language model, argument parsing and tool execution are
 * parameters.
 */
module Orchestrator {
  import opened Optional
  import opened Conversation
  import opened Tools

  /** What the model answers: optional text and the tool calls it requests, in order. */
  datatype Reply = Reply(content: Option<string>, toolCalls: seq<ToolCall>)

  /** A model call either answers or raises. */
  datatype ModelAnswer = Answered(reply: Reply) | ModelFailed(detail: string)

  /** One request to the model: the messages, and whether the tool catalogue is offered. */
  datatype Request = Request(messages: seq<Message>, offerTools: bool)

  type LanguageModel = Request -> ModelAnswer

  /** `json.loads` of a call's argument text; a failure carries the exception text. */
  type ArgParser = string -> Result<Args>

  /** Running a registered tool with parsed arguments (binding them by keyword included). */
  type ToolRunner = (ToolKind, Args) -> ToolOutcome

  /** The reply given when anything in the turn raises. */
  const FailurePrefix: string := "Alamak! Something went wrong: "

  /** The first request: the system prompt, the history, then the new user message. */
  function FirstMessages(system: string, history: seq<Exchange>, input: string): (m: seq<Message>)
    ensures |m| == 2 * |history| + 2
    ensures m[0] == SystemMsg(system) && m[|m| - 1] == UserMsg(input)
    ensures m[1..|m| - 1] == Flatten(history)
  {
    [SystemMsg(system)] + Flatten(history) + [UserMsg(input)]
  }

  // ---------------------------------------------------------------------------
  // Tool dispatch
  // ---------------------------------------------------------------------------

  /**
   * The text returned to the model for one call: the unknown-function
   * notice, the error notice of a raising tool, or the tool's own text.
   */
  function ResponseFor(call: ToolCall, args: Args, run: ToolRunner): (text: string)
    ensures LookupTool(call.name).None? ==> text == "❌ Unknown function: " + call.name
    ensures LookupTool(call.name).Some? ==>
      match run(LookupTool(call.name).value, args)
      case Returned(out) => text == out
      case Raised(e) => text == "❌ Error executing " + call.name + ": " + e
  {
    match LookupTool(call.name)
    case None => "❌ Unknown function: " + call.name
    case Some(k) =>
      match run(k, args)
      case Returned(out) => out
      case Raised(e) => "❌ Error executing " + call.name + ": " + e
  }

  /**
   * What is recorded about one call: nothing for an unknown name; otherwise
   * the name and arguments, with the error exactly when the tool raised.
   */
  function LogFor(call: ToolCall, args: Args, run: ToolRunner): (log: seq<ToolLog>)
    ensures |log| <= 1
    ensures log == [] <==> LookupTool(call.name).None?
    ensures log != [] ==>
      && log[0].tool == call.name && log[0].args == args
      && (log[0].error.Some? <==> run(LookupTool(call.name).value, args).Raised?)
      && (log[0].error.Some? ==> log[0].error.value == run(LookupTool(call.name).value, args).detail)
  {
    match LookupTool(call.name)
    case None => []
    case Some(k) =>
      match run(k, args)
      case Returned(_) => [ToolLog(call.name, args, None)]
      case Raised(e) => [ToolLog(call.name, args, Some(e))]
  }

  /** Every call's arguments parse. */
  predicate AllParse(calls: seq<ToolCall>, parse: ArgParser) {
    forall i :: 0 <= i < |calls| ==> parse(calls[i].arguments).Success?
  }

  /** Call `i` is the first whose arguments do not parse. */
  predicate FirstParseFailure(calls: seq<ToolCall>, parse: ArgParser, i: int) {
    && 0 <= i < |calls|
    && parse(calls[i].arguments).Failure?
    && AllParse(calls[..i], parse)
  }

  /** The responses to all calls, in call order. */
  function Responses(calls: seq<ToolCall>, parse: ArgParser, run: ToolRunner): (rs: seq<string>)
    requires AllParse(calls, parse)
    ensures |rs| == |calls|
  {
    seq(|calls|, i requires 0 <= i < |calls| => ResponseFor(calls[i], parse(calls[i].arguments).value, run))
  }

  /** The tool log of all calls, in call order. */
  function Logs(calls: seq<ToolCall>, parse: ArgParser, run: ToolRunner): seq<ToolLog>
    requires AllParse(calls, parse)
    decreases |calls|
  {
    if calls == [] then []
    else
      var last := |calls| - 1;
      assert AllParse(calls[..last], parse) by {
        assert forall j :: 0 <= j < last ==> calls[..last][j] == calls[j];
      }
      Logs(calls[..last], parse, run) + LogFor(calls[last], parse(calls[last].arguments).value, run)
  }

  /**
   * The log has at most one entry per call and only for registered names,
   * and it is empty exactly when no call names a registered tool.
   */
  lemma {:induction false} LogsSpec(calls: seq<ToolCall>, parse: ArgParser, run: ToolRunner)
    requires AllParse(calls, parse)
    ensures |Logs(calls, parse, run)| <= |calls|
    ensures forall x :: x in Logs(calls, parse, run) ==> LookupTool(x.tool).Some?
    ensures Logs(calls, parse, run) == [] <==> forall i :: 0 <= i < |calls| ==> LookupTool(calls[i].name).None?
    decreases |calls|
  {
    if calls != [] {
      var last := |calls| - 1;
      var init := calls[..last];
      PrefixParses(calls, parse, run, |calls|);
      assert calls[..|calls|] == calls;
      LogsSpec(init, parse, run);
      var before := Logs(init, parse, run);
      var entry := LogFor(calls[last], parse(calls[last].arguments).value, run);
      assert Logs(calls, parse, run) == before + entry;
      assert forall x :: x in before + entry ==> x in before || x in entry;
      NoneKnownSplit(calls);
    }
  }

  /** No call names a known tool exactly when none of the earlier calls does and the last does not either. */
  lemma NoneKnownSplit(calls: seq<ToolCall>)
    requires calls != []
    ensures var last := |calls| - 1;
      (forall i :: 0 <= i < |calls| ==> LookupTool(calls[i].name).None?) <==>
      (forall i :: 0 <= i < last ==> LookupTool(calls[..last][i].name).None?) && LookupTool(calls[last].name).None?
  {
    var last := |calls| - 1;
    assert forall i :: 0 <= i < last ==> calls[..last][i] == calls[i];
  }

  /** When the first `n` calls parse, so does the prefix of length `n`, and the log grows by the last call's entry. */
  lemma PrefixParses(calls: seq<ToolCall>, parse: ArgParser, run: ToolRunner, n: nat)
    requires 0 < n <= |calls|
    requires forall j :: 0 <= j < n ==> parse(calls[j].arguments).Success?
    ensures AllParse(calls[..n], parse) && AllParse(calls[..n - 1], parse)
    ensures Logs(calls[..n], parse, run) ==
      Logs(calls[..n - 1], parse, run) + LogFor(calls[n - 1], parse(calls[n - 1].arguments).value, run)
  {
    var prefix := calls[..n];
    assert forall j :: 0 <= j < n ==> prefix[j] == calls[j];
    assert prefix[..n - 1] == calls[..n - 1];
  }

  /** The first `i` calls parsed and were run: one response each, in order, and the log of those calls. */
  predicate DispatchedUpTo(calls: seq<ToolCall>, parse: ArgParser, run: ToolRunner, i: nat, responses: seq<string>, log: seq<ToolLog>) {
    && i <= |calls|
    && (forall j :: 0 <= j < i ==> parse(calls[j].arguments).Success?)
    && |responses| == i
    && (forall j :: 0 <= j < i ==> responses[j] == ResponseFor(calls[j], parse(calls[j].arguments).value, run))
    && AllParse(calls[..i], parse)
    && log == Logs(calls[..i], parse, run)
  }

  /** Running one more call whose arguments parse extends the responses and the log by that call's. */
  lemma DispatchStep(calls: seq<ToolCall>, parse: ArgParser, run: ToolRunner, i: nat, responses: seq<string>, log: seq<ToolLog>)
    requires DispatchedUpTo(calls, parse, run, i, responses, log)
    requires i < |calls| && parse(calls[i].arguments).Success?
    ensures var args := parse(calls[i].arguments).value;
      DispatchedUpTo(calls, parse, run, i + 1, responses + [ResponseFor(calls[i], args, run)], log + LogFor(calls[i], args, run))
  {
    PrefixParses(calls, parse, run, i + 1);
  }

  /** Once every call has run, the responses and log are those of all the calls. */
  lemma DispatchDone(calls: seq<ToolCall>, parse: ArgParser, run: ToolRunner, responses: seq<string>, log: seq<ToolLog>)
    requires DispatchedUpTo(calls, parse, run, |calls|, responses, log)
    ensures AllParse(calls, parse)
    ensures responses == Responses(calls, parse, run) && log == Logs(calls, parse, run)
  {
    assert calls[..|calls|] == calls;
  }

  /** The responses and the log of a dispatch in which every call's arguments parsed. */
  datatype Dispatched = Dispatched(responses: seq<string>, log: seq<ToolLog>)

  /**
   * Runs the calls in order. The first call whose arguments do not parse
   * aborts the whole dispatch with its parse error; otherwise there is one
   * response per call, in call order, and the log of the known calls.
   */
  method Dispatch(calls: seq<ToolCall>, parse: ArgParser, run: ToolRunner) returns (outcome: Result<Dispatched>)
    ensures outcome.Success? <==> AllParse(calls, parse)
    ensures outcome.Failure? ==>
      exists i :: FirstParseFailure(calls, parse, i) && outcome.error == parse(calls[i].arguments).error
    ensures outcome.Success? ==>
      && outcome.value.responses == Responses(calls, parse, run)
      && outcome.value.log == Logs(calls, parse, run)
  {
    var responses: seq<string> := [];
    var log: seq<ToolLog> := [];
    var i := 0;
    assert calls[..0] == [];
    while i < |calls|
      invariant DispatchedUpTo(calls, parse, run, i, responses, log)
    {
      var parsed := parse(calls[i].arguments);
      if parsed.Failure? {
        assert FirstParseFailure(calls, parse, i);
        return Failure(parsed.error);
      }
      DispatchStep(calls, parse, run, i, responses, log);
      responses := responses + [ResponseFor(calls[i], parsed.value, run)];
      log := log + LogFor(calls[i], parsed.value, run);
      i := i + 1;
    }
    DispatchDone(calls, parse, run, responses, log);
    return Success(Dispatched(responses, log));
  }

  // ---------------------------------------------------------------------------
  // The follow-up request
  // ---------------------------------------------------------------------------

  /** The tool messages answering the calls, the i-th response under the i-th call's id. */
  function ToolMessages(calls: seq<ToolCall>, responses: seq<string>): (m: seq<Message>)
    requires |responses| == |calls|
    ensures |m| == |calls|
    ensures forall i :: 0 <= i < |m| ==> m[i].ToolMsg? && m[i].callId == calls[i].id && m[i].content == responses[i]
  {
    if calls == [] then []
    else [ToolMsg(responses[0], calls[0].id)] + ToolMessages(calls[1..], responses[1..])
  }

  /** The second request's messages: the first request's, the assistant's calls, then one tool message per call. */
  function SecondMessages(first: seq<Message>, reply: Reply, responses: seq<string>): (m: seq<Message>)
    requires |responses| == |reply.toolCalls|
    ensures |m| == |first| + 1 + |responses|
    ensures m[..|first|] == first
    ensures m[|first|] == AssistantCalls(reply.content, reply.toolCalls)
    ensures forall i :: 0 <= i < |responses| ==>
      m[|first| + 1 + i] == ToolMsg(responses[i], reply.toolCalls[i].id)
  {
    var tools := ToolMessages(reply.toolCalls, responses);
    var m := first + [AssistantCalls(reply.content, reply.toolCalls)] + tools;
    assert forall i :: 0 <= i < |responses| ==> m[|first| + 1 + i] == tools[i];
    m
  }

  // ---------------------------------------------------------------------------
  // One turn
  // ---------------------------------------------------------------------------

  /** The outcome of a turn: the reply sent back, the stored history, and the requests made. */
  datatype Turn = Turn(reply: Option<string>, history: seq<Exchange>, requests: seq<Request>)

  /**
   * `process_user_message`. The first request offers the tools; without tool
   * calls its content is the reply; with them, the calls are dispatched and
   * a second request without tools yields the reply. Anything that raises
   * gives the apology with the exception text and leaves the history as it
   * was; a successful turn appends the exchange, with the tool log, to it.
   */
  method Process(
    input: string, system: string, timestamp: string, history: seq<Exchange>,
    model: LanguageModel, parse: ArgParser, run: ToolRunner)
    returns (t: Turn)
    ensures 1 <= |t.requests| <= 2
    ensures t.requests[0] == Request(FirstMessages(system, history, input), true)
    ensures |t.requests| == 2 ==> !t.requests[1].offerTools
    ensures t.history == history || (0 < |t.history| <= HistoryLimit && t.history[|t.history| - 1].user == input)
    ensures var first := t.requests[0];
      && (model(first).ModelFailed? ==>
            t == Turn(Some(FailurePrefix + model(first).detail), history, [first]))
      && (model(first).Answered? && model(first).reply.toolCalls == [] ==>
            var content := model(first).reply.content;
            t == Turn(content, AddExchange(history, NewExchange(timestamp, input, content, [])), [first]))
      && (model(first).Answered? && model(first).reply.toolCalls != [] ==>
            var calls := model(first).reply.toolCalls;
            && (!AllParse(calls, parse) ==>
                  && |t.requests| == 1 && t.history == history
                  && exists i :: FirstParseFailure(calls, parse, i)
                       && t.reply == Some(FailurePrefix + parse(calls[i].arguments).error))
            && (AllParse(calls, parse) ==>
                  var second := Request(
                    SecondMessages(first.messages, model(first).reply, Responses(calls, parse, run)), false);
                  && t.requests == [first, second]
                  && (model(second).ModelFailed? ==>
                        t.reply == Some(FailurePrefix + model(second).detail) && t.history == history)
                  && (model(second).Answered? ==>
                        var content := model(second).reply.content;
                        && t.reply == content
                        && t.history == AddExchange(history, NewExchange(timestamp, input, content, Logs(calls, parse, run))))))
  {
    var first := Request(FirstMessages(system, history, input), true);
    match model(first)
    case ModelFailed(detail) =>
      return Turn(Some(FailurePrefix + detail), history, [first]);
    case Answered(reply) =>
      if reply.toolCalls == [] {
        return Turn(reply.content, AddExchange(history, NewExchange(timestamp, input, reply.content, [])), [first]);
      }
      var dispatched := Dispatch(reply.toolCalls, parse, run);
      match dispatched
      case Failure(e) =>
        return Turn(Some(FailurePrefix + e), history, [first]);
      case Success(d) =>
        var second := Request(SecondMessages(first.messages, reply, d.responses), false);
        match model(second)
        case ModelFailed(detail) =>
          return Turn(Some(FailurePrefix + detail), history, [first, second]);
        case Answered(final) =>
          return Turn(final.content, AddExchange(history, NewExchange(timestamp, input, final.content, d.log)), [first, second]);
  }
}

=== FILE: sequences.dfy ===
/** Order-preserving selection from a sequence, the shape of every filtering loop in the model. */
module Sequences {

  /** `a` is `b` with some elements left out and the rest in their original order. */
  predicate IsSubsequence<T(==)>(a: seq<T>, b: seq<T>)
    decreases |b|
  {
    if a == [] then true
    else if b == [] then false
    else if a[0] == b[0] then IsSubsequence(a[1..], b[1..])
    else IsSubsequence(a, b[1..])
  }

  lemma {:induction false} SubsequenceExtend<T>(a: seq<T>, b: seq<T>, x: T)
    requires IsSubsequence(a, b)
    ensures IsSubsequence(a, [x] + b)
    decreases |a| + |b|, 1
  {
    assert ([x] + b)[1..] == b;
    if a != [] && a[0] == x {
      SubsequenceDropFirst(a, b);
    }
  }

  lemma {:induction false} SubsequenceDropFirst<T>(a: seq<T>, b: seq<T>)
    requires a != [] && IsSubsequence(a, b)
    ensures IsSubsequence(a[1..], b)
    decreases |a| + |b|, 0
  {
    if a[0] == b[0] {
      SubsequenceExtend(a[1..], b[1..], b[0]);
      assert b == [b[0]] + b[1..];
    } else {
      SubsequenceDropFirst(a, b[1..]);
      SubsequenceExtend(a[1..], b[1..], b[0]);
      assert b == [b[0]] + b[1..];
    }
  }

  /** The elements of `s` satisfying `keep`, in order: a Python `for ... if ...: append` loop. */
  function Filter<T(==,!new)>(s: seq<T>, keep: T -> bool): (r: seq<T>)
    ensures IsSubsequence(r, s)
    ensures forall x :: x in r <==> x in s && keep(x)
    ensures forall x :: multiset(r)[x] == if keep(x) then multiset(s)[x] else 0
    ensures |r| <= |s|
  {
    if s == [] then []
    else
      var rest := Filter(s[1..], keep);
      assert s == [s[0]] + s[1..];
      if keep(s[0]) then
        assert ([s[0]] + rest)[1..] == rest;
        [s[0]] + rest
      else
        SubsequenceExtend(rest, s[1..], s[0]);
        rest
  }
}

=== FILE: text.dfy ===
/**
 * String helpers with Python's meaning, restricted to ASCII: `str.lower`,
 * `str.split()`, `str.strip()`, `str.split(sep)`, `str.replace`, the `in`
 * substring test, `str(int)` and string ordering.
 */
module Text {

  /**
   * Python's whitespace on ASCII, shared by `\s`, `str.split()` and
   * `str.strip()`: space, tab, newline, vertical tab, form feed, carriage
   * return and the four separators 0x1C to 0x1F.
   */
  predicate IsSpace(c: char) {
    c == ' ' || '\t' <= c <= '\r' || '\U{001C}' <= c <= '\U{001F}'
  }

  predicate IsUpper(c: char) { 'A' <= c <= 'Z' }

  predicate IsDigit(c: char) { '0' <= c <= '9' }

  /** Python's `\w` on ASCII: letters, digits and the underscore. */
  predicate IsWordChar(c: char) {
    'a' <= c <= 'z' || IsUpper(c) || IsDigit(c) || c == '_'
  }

  /** A character that may appear in normalised text between words. */
  predicate IsLowerWordChar(c: char) { IsWordChar(c) && !IsUpper(c) }

  function LowerChar(c: char): (d: char)
    ensures !IsUpper(d)
    ensures IsSpace(c) ==> d == c
    ensures IsWordChar(c) <==> IsWordChar(d)
  {
    if IsUpper(c) then (c as int + 32) as char else c
  }

  /** `s.lower()` on ASCII. */
  function Lower(s: string): (r: string)
    ensures |r| == |s|
    ensures forall i :: 0 <= i < |s| ==> r[i] == LowerChar(s[i])
  {
    seq(|s|, i requires 0 <= i < |s| => LowerChar(s[i]))
  }

  // ---------------------------------------------------------------------------
  // Substrings, prefixes, suffixes
  // ---------------------------------------------------------------------------

  predicate StartsWith(s: string, p: string) {
    |p| <= |s| && s[..|p|] == p
  }

  predicate EndsWith(s: string, p: string) {
    |p| <= |s| && s[|s| - |p|..] == p
  }

  /** Python's `p in s` for strings: `p` occurs somewhere in `s`. */
  predicate Contains(s: string, p: string)
    decreases |s|
  {
    StartsWith(s, p) || (|s| > 0 && Contains(s[1..], p))
  }

  // ---------------------------------------------------------------------------
  // Whitespace splitting and joining
  // ---------------------------------------------------------------------------

  /** A word produced by `str.split()`: non-empty and free of whitespace. */
  predicate IsToken(w: string) {
    |w| > 0 && forall i :: 0 <= i < |w| ==> !IsSpace(w[i])
  }

  /** Length of the leading run of non-whitespace characters. */
  function RunLength(s: string): (n: nat)
    ensures n <= |s|
    ensures forall i :: 0 <= i < n ==> !IsSpace(s[i])
    ensures n < |s| ==> IsSpace(s[n])
  {
    if s == [] || IsSpace(s[0]) then 0 else 1 + RunLength(s[1..])
  }

  /** `s.split()`: the maximal runs of non-whitespace characters, in order. */
  function Words(s: string): (ws: seq<string>)
    ensures forall i :: 0 <= i < |ws| ==> IsToken(ws[i])
    ensures forall i :: 0 <= i < |ws| ==> forall c :: c in ws[i] ==> c in s
    decreases |s|
  {
    if s == [] then []
    else if IsSpace(s[0]) then Words(s[1..])
    else
      var n := RunLength(s);
      assert forall c :: c in s[..n] ==> c in s;
      assert forall c :: c in s[n..] ==> c in s;
      [s[..n]] + Words(s[n..])
  }

  /** `" ".join(ws)`. */
  function Join(ws: seq<string>): string {
    if |ws| == 0 then ""
    else if |ws| == 1 then ws[0]
    else ws[0] + " " + Join(ws[1..])
  }

  lemma {:induction false} RunLengthOfToken(w: string, rest: string)
    requires IsToken(w)
    requires rest == [] || IsSpace(rest[0])
    ensures RunLength(w + rest) == |w|
    decreases |w|
  {
    if |w| > 1 {
      assert (w + rest)[1..] == w[1..] + rest;
      RunLengthOfToken(w[1..], rest);
    } else {
      assert (w + rest)[1..] == rest;
    }
  }

  /** Splitting a space-joined list of words gives the words back. */
  lemma {:induction false} WordsOfJoin(ws: seq<string>)
    requires forall i :: 0 <= i < |ws| ==> IsToken(ws[i])
    ensures Words(Join(ws)) == ws
  {
    if |ws| == 0 {
    } else if |ws| == 1 {
      var w := ws[0];
      RunLengthOfToken(w, []);
      assert w + [] == w;
      assert w[|w|..] == [];
      assert w[..|w|] == w;
    } else {
      var w, j := ws[0], Join(ws[1..]);
      var s := w + " " + j;
      assert s == w + (" " + j);
      RunLengthOfToken(w, " " + j);
      assert s[..|w|] == w;
      assert s[|w|..] == " " + j;
      assert (" " + j)[1..] == j;
      WordsOfJoin(ws[1..]);
      assert ws == [w] + ws[1..];
    }
  }

  /** A string consisting only of whitespace has no words. */
  lemma {:induction false} WordsOfBlank(s: string)
    requires forall i :: 0 <= i < |s| ==> IsSpace(s[i])
    ensures Words(s) == []
    decreases |s|
  {
    if s != [] {
      WordsOfBlank(s[1..]);
    }
  }

  // ---------------------------------------------------------------------------
  // str.strip()
  // ---------------------------------------------------------------------------

  function TrimStart(s: string): (r: string)
    ensures r == [] || !IsSpace(r[0])
    ensures |r| <= |s| && r == s[|s| - |r|..]
    ensures forall i :: 0 <= i < |s| - |r| ==> IsSpace(s[i])
  {
    if s != [] && IsSpace(s[0]) then TrimStart(s[1..]) else s
  }

  function TrimEnd(s: string): (r: string)
    ensures r == [] || !IsSpace(r[|r| - 1])
    ensures |r| <= |s| && r == s[..|r|]
    ensures forall i :: |r| <= i < |s| ==> IsSpace(s[i])
  {
    if s != [] && IsSpace(s[|s| - 1]) then TrimEnd(s[..|s| - 1]) else s
  }

  /** `s.strip()`: whitespace removed from both ends, nothing else touched. */
  function Strip(s: string): (r: string)
    ensures r == [] || (!IsSpace(r[0]) && !IsSpace(r[|r| - 1]))
  {
    TrimEnd(TrimStart(s))
  }

  /** `not s.strip()` holds exactly when every character of `s` is whitespace. */
  lemma StripEmptyIffBlank(s: string)
    ensures Strip(s) == "" <==> forall i :: 0 <= i < |s| ==> IsSpace(s[i])
  {
    var t := TrimStart(s);
    if t != [] {
      assert t[0] == s[|s| - |t|];
    }
  }

  // ---------------------------------------------------------------------------
  // Normalisation of free text (the matcher's `_normalize_text`)
  // ---------------------------------------------------------------------------

  /** `re.sub(r'[^\w\s]', ' ', c)` applied to one character. */
  function PunctToSpace(c: char): char {
    if IsWordChar(c) || IsSpace(c) then c else ' '
  }

  /** Lower-casing followed by punctuation-to-space, character by character. */
  function Clean(s: string): (r: string)
    ensures |r| == |s|
    ensures forall i :: 0 <= i < |s| ==> r[i] == PunctToSpace(LowerChar(s[i]))
    ensures forall c :: c in r ==> IsSpace(c) || IsLowerWordChar(c)
  {
    seq(|s|, i requires 0 <= i < |s| => PunctToSpace(LowerChar(s[i])))
  }

  /**
   * `re.sub(r'\s+', ' ', s)`: every maximal run of whitespace becomes one
   * space. Whitespace followed by more whitespace is dropped; the last
   * character of a run becomes ' '.
   */
  function CollapseSpaces(s: string): string
    decreases |s|
  {
    if s == [] then []
    else if IsSpace(s[0]) && |s| > 1 && IsSpace(s[1]) then CollapseSpaces(s[1..])
    else if IsSpace(s[0]) then [' '] + CollapseSpaces(s[1..])
    else [s[0]] + CollapseSpaces(s[1..])
  }

  /**
   * `_normalize_text`: "" for "", otherwise lower-case, punctuation replaced
   * by spaces, every whitespace run collapsed to one space, ends stripped.
   */
  function Normalize(t: string): string {
    if t == "" then "" else Strip(CollapseSpaces(Clean(t)))
  }

  /** " " when `s` ends in whitespace, else "". */
  function TrailingSpace(s: string): string {
    if s != [] && IsSpace(s[|s| - 1]) then " " else ""
  }

  /** Leading whitespace does not change the words. */
  lemma {:induction false} WordsTrimStart(s: string)
    ensures Words(TrimStart(s)) == Words(s)
    decreases |s|
  {
    if s != [] && IsSpace(s[0]) {
      WordsTrimStart(s[1..]);
    }
  }

  /** Text starting with a non-whitespace character has at least one word. */
  lemma WordsNonEmpty(s: string)
    requires s != [] && !IsSpace(s[0])
    ensures Words(s) != []
  {
  }

  /** Joining a first word onto at least one more puts a single space between them. */
  lemma JoinCons(w: string, ws: seq<string>)
    requires ws != []
    ensures Join([w] + ws) == w + " " + Join(ws)
  {
    assert ([w] + ws)[1..] == ws;
  }

  /** A run of non-whitespace characters is copied unchanged by the collapse. */
  lemma {:induction false} CollapseToken(s: string, n: nat)
    requires n <= |s|
    requires forall i :: 0 <= i < n ==> !IsSpace(s[i])
    ensures CollapseSpaces(s) == s[..n] + CollapseSpaces(s[n..])
    decreases n
  {
    if n > 0 {
      CollapseToken(s[1..], n - 1);
      assert s[1..][..n - 1] == s[1..n];
      assert s[1..][n - 1..] == s[n..];
      assert s[..n] == [s[0]] + s[1..n];
    }
  }

  /** A whitespace run at the front collapses to one space before whatever follows it. */
  lemma {:induction false} CollapseSpaceRun(t: string)
    requires t != [] && IsSpace(t[0])
    ensures CollapseSpaces(t) == " " + CollapseSpaces(TrimStart(t))
    decreases |t|
  {
    if |t| > 1 && IsSpace(t[1]) {
      CollapseSpaceRun(t[1..]);
    }
  }

  /**
   * Collapsing text that does not start with whitespace gives its words
   * joined by single spaces, followed by one space when it ended in whitespace.
   */
  lemma {:induction false} CollapseIsJoin(s: string)
    requires s == [] || !IsSpace(s[0])
    ensures CollapseSpaces(s) == Join(Words(s)) + TrailingSpace(s)
    decreases |s|
  {
    if s != [] {
      var n := RunLength(s);
      if n == |s| {
        CollapseWholeToken(s);
      } else {
        var u := TrimStart(s[n..]);
        CollapseIsJoin(u);
        CollapseTokenThenRun(s, u);
      }
    }
  }

  /** Text without whitespace collapses to itself, its only word. */
  lemma CollapseWholeToken(s: string)
    requires s != [] && RunLength(s) == |s|
    ensures CollapseSpaces(s) == Join(Words(s)) + TrailingSpace(s)
  {
    var n := |s|;
    CollapseToken(s, n);
    assert s[..n] == s && s[n..] == [];
    assert Words(s) == [s] + Words([]);
    assert TrailingSpace(s) == "";
    assert CollapseSpaces(s) == s + [];
  }

  /** The inductive step: a first word, then a whitespace run, then text `u` for which the claim holds. */
  lemma CollapseTokenThenRun(s: string, u: string)
    requires s != [] && !IsSpace(s[0]) && RunLength(s) < |s|
    requires u == TrimStart(s[RunLength(s)..])
    requires CollapseSpaces(u) == Join(Words(u)) + TrailingSpace(u)
    ensures CollapseSpaces(s) == Join(Words(s)) + TrailingSpace(s)
  {
    var n := RunLength(s);
    var w := s[..n];
    var t := s[n..];
    CollapseToken(s, n);
    assert Words(s) == [w] + Words(t);
    CollapseSpaceRun(t);
    WordsTrimStart(t);
    assert t[|t| - 1] == s[|s| - 1];
    assert CollapseSpaces(s) == w + (" " + CollapseSpaces(u));
    if u == [] {
      assert Words(s) == [w];
      assert TrailingSpace(s) == " ";
      assert CollapseSpaces(s) == w + " ";
    } else {
      var j, tail := Join(Words(u)), TrailingSpace(u);
      WordsNonEmpty(u);
      JoinCons(w, Words(u));
      assert u[|u| - 1] == t[|t| - 1];
      assert tail == TrailingSpace(s);
      assert CollapseSpaces(s) == w + (" " + (j + tail));
      Concat4(w, " ", j, tail);
    }
  }

  lemma Concat4(a: string, b: string, c: string, d: string)
    ensures a + (b + (c + d)) == a + b + c + d
  {
  }

  /** Joined tokens neither start nor end with whitespace. */
  lemma {:induction false} JoinOfTokens(ws: seq<string>)
    requires forall i :: 0 <= i < |ws| ==> IsToken(ws[i])
    ensures |ws| > 0 ==> var j := Join(ws); |j| > 0 && !IsSpace(j[0]) && !IsSpace(j[|j| - 1])
  {
    if |ws| > 1 {
      JoinOfTokens(ws[1..]);
      var j := Join(ws[1..]);
      assert (ws[0] + " " + j)[0] == ws[0][0];
      assert (ws[0] + " " + j)[|ws[0] + " " + j| - 1] == j[|j| - 1];
    }
  }

  /** Stripping whitespace in front of text that starts with none leaves that text. */
  lemma {:induction false} TrimStartSpaces(p: string, x: string)
    requires forall i :: 0 <= i < |p| ==> IsSpace(p[i])
    requires x == [] || !IsSpace(x[0])
    ensures TrimStart(p + x) == x
    decreases |p|
  {
    if p == [] {
      assert p + x == x;
    } else {
      assert (p + x)[1..] == p[1..] + x;
      TrimStartSpaces(p[1..], x);
    }
  }

  /** Stripping whitespace after text that ends with none leaves that text. */
  lemma {:induction false} TrimEndSpaces(x: string, t: string)
    requires x == [] || !IsSpace(x[|x| - 1])
    requires forall i :: 0 <= i < |t| ==> IsSpace(t[i])
    ensures TrimEnd(x + t) == x
    decreases |t|
  {
    if t == [] {
      assert x + t == x;
    } else {
      assert (x + t)[..|x + t| - 1] == x + t[..|t| - 1];
      TrimEndSpaces(x, t[..|t| - 1]);
    }
  }

  /** `re.sub(r'\s+', ' ', s).strip()` equals `" ".join(s.split())`. */
  lemma CollapseStripIsJoin(s: string)
    ensures Strip(CollapseSpaces(s)) == Join(Words(s))
  {
    if s == [] {
    } else if !IsSpace(s[0]) {
      CollapseIsJoin(s);
      WordsNonEmpty(s);
      var ws, post := Words(s), TrailingSpace(s);
      assert ws != [];
      assert forall i :: 0 <= i < |ws| ==> IsToken(ws[i]);
      assert forall i :: 0 <= i < |post| ==> IsSpace(post[i]);
      StripPadded("", ws, post);
      assert "" + (Join(Words(s)) + TrailingSpace(s)) == CollapseSpaces(s);
    } else {
      var u := TrimStart(s);
      CollapseSpaceRun(s);
      WordsTrimStart(s);
      CollapseIsJoin(u);
      if u == [] {
        assert CollapseSpaces(s) == " ";
        assert TrimStart(" ") == TrimStart(" "[1..]);
      } else {
        WordsNonEmpty(u);
        StripPadded(" ", Words(u), TrailingSpace(u));
      }
    }
  }

  /** Whitespace on either side of joined tokens is exactly what stripping removes. */
  lemma StripPadded(pre: string, ws: seq<string>, post: string)
    requires forall i :: 0 <= i < |pre| ==> IsSpace(pre[i])
    requires forall i :: 0 <= i < |post| ==> IsSpace(post[i])
    requires ws != [] && forall i :: 0 <= i < |ws| ==> IsToken(ws[i])
    ensures Strip(pre + (Join(ws) + post)) == Join(ws)
  {
    JoinOfTokens(ws);
    TrimStartSpaces(pre, Join(ws) + post);
    TrimEndSpaces(Join(ws), post);
  }

  /** Normalised text is the words of the lower-cased, punctuation-free text, joined by single spaces. */
  lemma NormalizeIsJoin(t: string)
    ensures Normalize(t) == Join(Words(Clean(t)))
  {
    if t != "" {
      CollapseStripIsJoin(Clean(t));
    }
  }

  /** What normalised text looks like. */
  predicate IsNormal(s: string) {
    && (forall i :: 0 <= i < |s| ==> s[i] == ' ' || IsLowerWordChar(s[i]))
    && (|s| > 0 ==> s[0] != ' ' && s[|s| - 1] != ' ')
    && (forall i :: 1 <= i < |s| && s[i] == ' ' ==> s[i - 1] != ' ')
  }

  predicate IsNormalWord(w: string) {
    |w| > 0 && forall i :: 0 <= i < |w| ==> IsLowerWordChar(w[i])
  }

  lemma {:induction false} JoinOfNormalWords(ws: seq<string>)
    requires forall i :: 0 <= i < |ws| ==> IsNormalWord(ws[i])
    ensures IsNormal(Join(ws))
    ensures |ws| > 0 ==> |Join(ws)| > 0
  {
    if |ws| > 1 {
      var w, j := ws[0], Join(ws[1..]);
      JoinOfNormalWords(ws[1..]);
      var s := w + " " + j;
      assert forall i :: 0 <= i < |w| ==> s[i] == w[i];
      assert s[|w|] == ' ';
      assert forall i :: |w| < i < |s| ==> s[i] == j[i - |w| - 1];
    }
  }

  lemma WordsOfCleanAreNormal(t: string)
    ensures forall i :: 0 <= i < |Words(Clean(t))| ==> IsNormalWord(Words(Clean(t))[i])
  {
    var ws := Words(Clean(t));
    forall i | 0 <= i < |ws|
      ensures IsNormalWord(ws[i])
    {
      forall k | 0 <= k < |ws[i]|
        ensures IsLowerWordChar(ws[i][k])
      {
        assert ws[i][k] in ws[i];
      }
    }
  }

  /**
   * Normalised text is lower-case, has punctuation replaced by spaces, and has
   * no leading, trailing or doubled space; the empty input gives "".
   */
  lemma NormalizeShape(t: string)
    ensures IsNormal(Normalize(t))
    ensures t == "" ==> Normalize(t) == ""
  {
    NormalizeIsJoin(t);
    if t != "" {
      WordsOfCleanAreNormal(t);
      JoinOfNormalWords(Words(Clean(t)));
    }
  }

  /** Normalised text is untouched by lower-casing and punctuation replacement. */
  lemma CleanOfNormal(s: string)
    requires IsNormal(s)
    ensures Clean(s) == s
  {
  }

  /** Normalising twice is the same as normalising once. */
  lemma NormalizeIdempotent(t: string)
    ensures Normalize(Normalize(t)) == Normalize(t)
  {
    var s := Normalize(t);
    NormalizeIsJoin(t);
    NormalizeIsJoin(s);
    if s != "" {
      var ws := Words(Clean(t));
      NormalizeShape(t);
      CleanOfNormal(s);
      WordsOfJoin(ws);
    }
  }

  /** A whitespace-only input normalises to "". */
  lemma NormalizeBlank(t: string)
    ensures (forall i :: 0 <= i < |t| ==> IsSpace(t[i])) ==> Normalize(t) == ""
  {
    if t != "" && forall i :: 0 <= i < |t| ==> IsSpace(t[i]) {
      NormalizeIsJoin(t);
      var c := Clean(t);
      forall i | 0 <= i < |c|
        ensures IsSpace(c[i])
      {
        assert c[i] == PunctToSpace(LowerChar(t[i]));
      }
      WordsOfBlank(c);
    }
  }

  /** Normalised text is the space-join of its own words, and is empty exactly when it has none. */
  lemma WordsOfNormalize(t: string)
    ensures Normalize(t) == Join(Words(Normalize(t)))
    ensures Normalize(t) == "" <==> Words(Normalize(t)) == []
  {
    NormalizeIsJoin(t);
    if t != "" {
      var ws := Words(Clean(t));
      WordsOfCleanAreNormal(t);
      JoinOfNormalWords(ws);
      WordsOfJoin(ws);
    }
  }

  /**
   * The words of normalised text are exactly the words of the input once it
   * is lower-cased and its punctuation turned into spaces.
   */
  lemma NormalizeWords(t: string)
    ensures Words(Normalize(t)) == Words(Clean(t))
  {
    NormalizeIsJoin(t);
    WordsOfJoin(Words(Clean(t)));
  }

  // ---------------------------------------------------------------------------
  // str.split(sep) and str.replace
  // ---------------------------------------------------------------------------

  /** Index of the first occurrence of `c` in `s`. */
  function IndexOf(s: string, c: char): (i: nat)
    requires c in s
    ensures i < |s| && s[i] == c && c !in s[..i]
  {
    if s[0] == c then 0
    else
      var j := IndexOf(s[1..], c);
      assert s[..j + 1] == [s[0]] + s[1..][..j];
      j + 1
  }

  /** `s.split(sep)` for a one-character separator: the pieces between separators. */
  function SplitOn(s: string, sep: char): (parts: seq<string>)
    ensures |parts| >= 1
    ensures forall i :: 0 <= i < |parts| ==> sep !in parts[i]
    decreases |s|
  {
    if sep !in s then [s]
    else
      var i := IndexOf(s, sep);
      [s[..i]] + SplitOn(s[i + 1..], sep)
  }

  /** A piece free of the separator is split off intact at the first separator. */
  lemma SplitOnFirst(a: string, sep: char, b: string)
    requires sep !in a
    ensures SplitOn(a + [sep] + b, sep) == [a] + SplitOn(b, sep)
  {
    var s := a + [sep] + b;
    assert s[|a|] == sep;
    assert forall k :: 0 <= k < |a| ==> s[k] == a[k];
    assert s[..|a|] == a;
    assert s[|a| + 1..] == b;
  }

  /** `s.replace(pat, rep)`: every non-overlapping occurrence, left to right. */
  function ReplaceAll(s: string, pat: string, rep: string): string
    requires |pat| > 0
    decreases |s|
  {
    if s == [] then []
    else if StartsWith(s, pat) then rep + ReplaceAll(s[|pat|..], pat, rep)
    else [s[0]] + ReplaceAll(s[1..], pat, rep)
  }

  /** Removing a suffix pattern whose first character never occurs in the stem leaves the stem. */
  lemma {:induction false} ReplaceSuffix(stem: string, pat: string)
    requires |pat| > 0 && pat[0] !in stem
    ensures ReplaceAll(stem + pat, pat, "") == stem
    decreases |stem|
  {
    var s := stem + pat;
    if stem == [] {
      assert s == pat;
      assert s[..|pat|] == pat;
      assert s[|pat|..] == [];
    } else {
      assert s[0] == stem[0] != pat[0];
      assert !StartsWith(s, pat);
      assert s[1..] == stem[1..] + pat;
      ReplaceSuffix(stem[1..], pat);
      assert [stem[0]] + stem[1..] == stem;
    }
  }

  // ---------------------------------------------------------------------------
  // str(int)
  // ---------------------------------------------------------------------------

  function DigitChar(d: nat): (c: char)
    requires d < 10
    ensures IsDigit(c)
  {
    ('0' as int + d) as char
  }

  predicate AllDigits(s: string) {
    forall i :: 0 <= i < |s| ==> IsDigit(s[i])
  }

  /** Decimal spelling of a natural number, most significant digit first. */
  function NatToString(n: nat): (s: string)
    ensures |s| > 0 && AllDigits(s)
    decreases n
  {
    if n < 10 then [DigitChar(n)] else NatToString(n / 10) + [DigitChar(n % 10)]
  }

  /** `str(i)` for a Python `int`. */
  function IntToString(i: int): (s: string)
    ensures |s| > 0
    ensures forall k :: 0 <= k < |s| ==> IsDigit(s[k]) || s[k] == '-'
  {
    if i < 0 then "-" + NatToString(-i) else NatToString(i)
  }

  // ---------------------------------------------------------------------------
  // String ordering
  // ---------------------------------------------------------------------------

  /** Python's `a < b` on strings: lexicographic by code point. */
  predicate StrLess(a: string, b: string)
    decreases |a|
  {
    |b| > 0 && (|a| == 0 || a[0] < b[0] || (a[0] == b[0] && StrLess(a[1..], b[1..])))
  }
}

=== FILE: tools.dfy ===
/**
 * The tool functions the language model may call and their registry. Each
 * tool is a pure renderer over what the gateway and the matcher return: it
 * first decides what to show (a view), then spells the view out as the
 * Markdown text the chat receives.
 */
module Tools {
  import opened Optional
  import opened Text
  import opened Sequences
  import opened Gateway
  import opened Matcher

  /** `a + b + c` contains `b`. */
  lemma {:induction false} ContainsMiddle(a: string, b: string, c: string)
    ensures Contains(a + b + c, b)
    decreases |a|
  {
    if a == [] {
      assert (a + b + c)[..|b|] == b;
    } else {
      assert (a + b + c)[1..] == a[1..] + b + c;
      ContainsMiddle(a[1..], b, c);
    }
  }

  /** The smaller of two integers. */
  function Min(a: int, b: int): int {
    if a <= b then a else b
  }

  // ---------------------------------------------------------------------------
  // `get_bus_arrival_tool`
  // ---------------------------------------------------------------------------

  /** The heading an arrival error is shown under. */
  datatype ErrorHeading =
    | AuthHeading | NotFoundHeading | RateLimitHeading | TimeoutHeading | ConnectionHeading | GenericHeading

  /** Five error kinds get their own heading; every other kind gets the generic one. */
  function ArrivalHeading(k: ErrorKind): (h: ErrorHeading)
    ensures h == GenericHeading <==> k !in {Auth, NotFound, RateLimit, Timeout, Connection}
    ensures h == AuthHeading <==> k == Auth
    ensures h == NotFoundHeading <==> k == NotFound
    ensures h == RateLimitHeading <==> k == RateLimit
    ensures h == TimeoutHeading <==> k == Timeout
    ensures h == ConnectionHeading <==> k == Connection
  {
    match k
    case Auth => AuthHeading
    case NotFound => NotFoundHeading
    case RateLimit => RateLimitHeading
    case Timeout => TimeoutHeading
    case Connection => ConnectionHeading
    case _ => GenericHeading
  }

  /** The first line of an error notice. */
  function HeadingTitle(h: ErrorHeading): string {
    match h
    case AuthHeading => "🔐 **Authentication Error**\n"
    case NotFoundHeading => "❌ **Bus Stop Not Found**\n"
    case RateLimitHeading => "🚦 **Too Many Requests**\n"
    case TimeoutHeading => "⏰ **Request Timeout**\n"
    case ConnectionHeading => "🌐 **Connection Error**\n"
    case GenericHeading => "❌ **Error:** "
  }

  /** The advice printed after the message. */
  function HeadingAdvice(h: ErrorHeading): string {
    match h
    case AuthHeading => "\n\nAdmin needs to check the LTA API key!"
    case NotFoundHeading =>
      "\n\n💡 **Try:**\n• Check if the bus stop code is correct (5 digits)\n• Search by location name instead\n• Make sure it's an active bus stop"
    case RateLimitHeading => "\n\nPlease wait a bit before trying again!"
    case TimeoutHeading => "\n\nThe API is slow. Please try again!"
    case ConnectionHeading => "\n\nCheck your internet connection and try again."
    case GenericHeading => ""
  }

  /** How the arrival of one bus is phrased. */
  datatype Phrase = ArrivingNow | OneMinute | InMinutes(n: int) | NotKnown

  /**
   * Unknown minutes read "N/A"; zero or fewer read "Arriving now"; exactly
   * one is the singular "1 minute"; anything else is "N minutes".
   */
  function PhraseFor(minutes: Option<int>): (p: Phrase)
    ensures p == NotKnown <==> minutes.None?
    ensures p == ArrivingNow <==> minutes.Some? && minutes.value <= 0
    ensures p == OneMinute <==> minutes == Some(1)
    ensures p.InMinutes? <==> minutes.Some? && minutes.value >= 2
    ensures p.InMinutes? ==> p.n == minutes.value
  {
    match minutes
    case None => NotKnown
    case Some(m) => if m <= 0 then ArrivingNow else if m == 1 then OneMinute else InMinutes(m)
  }

  function PhraseText(p: Phrase): string {
    match p
    case ArrivingNow => "**Arriving now** 🏃‍♂️"
    case OneMinute => "**1 minute**"
    case InMinutes(n) => "**" + IntToString(n) + " minutes**"
    case NotKnown => "N/A"
  }

  /** The labels of the three slots, in order. */
  const SlotLabels: seq<string> := ["Next", "2nd", "3rd"]

  /** One bullet line for one bus slot. */
  function SlotText(tag: string, bus: BusInfo): string {
    match bus
    case Unavailable => "  • " + tag + ": No data available\n"
    case Available(minutes, load, _, _) =>
      "  • " + tag + ": " + PhraseText(PhraseFor(minutes)) + " - " + CrowdingLabel(load) + "\n"
  }

  /** The block for one service: a title line, the three slots labelled Next, 2nd, 3rd, a blank line. */
  function ServiceBlockText(s: ServiceInfo): string {
    "**🚌 Service " + s.serviceNo + "** (" + s.operator + "):\n"
    + SlotText(SlotLabels[0], s.next1) + SlotText(SlotLabels[1], s.next2) + SlotText(SlotLabels[2], s.next3)
    + "\n"
  }

  /** A service is shown when no (non-empty) filter is given or its number equals the filter. */
  predicate ServiceWanted(s: ServiceInfo, filter: Option<string>) {
    !Truthy(filter) || s.serviceNo == filter.value
  }

  function SelectServices(services: seq<ServiceInfo>, filter: Option<string>): seq<ServiceInfo> {
    Filter(services, s => ServiceWanted(s, filter))
  }

  /** What the arrival tool shows. */
  datatype ArrivalView =
    | ErrorNotice(heading: ErrorHeading, message: string)
    | UnexpectedResponse
    | NoServices
    | Board(timestamp: string, shown: seq<ServiceInfo>)

  function ArrivalViewOf(filter: Option<string>, result: ArrivalResult): ArrivalView {
    match result
    case ArrivalError(kind, message) => ErrorNotice(ArrivalHeading(kind), message)
    case ArrivalData(_, timestamp, services, status) =>
      if status != "success" then UnexpectedResponse
      else if services == [] then NoServices
      else Board(timestamp, SelectServices(services, filter))
  }

  function ServiceBlocksText(shown: seq<ServiceInfo>): string {
    if shown == [] then "" else ServiceBlockText(shown[0]) + ServiceBlocksText(shown[1..])
  }

  /** The text of an arrival view; an error notice starts with its heading and quotes the gateway's message. */
  function RenderArrival(code: string, view: ArrivalView): (text: string)
    ensures view.ErrorNotice? ==> StartsWith(text, HeadingTitle(view.heading)) && Contains(text, view.message)
  {
    match view
    case ErrorNotice(h, message) =>
      ContainsMiddle(HeadingTitle(h), message, HeadingAdvice(h));
      HeadingTitle(h) + message + HeadingAdvice(h)
    case UnexpectedResponse => "❌ Unexpected API response for bus stop " + code
    case NoServices =>
      "ℹ️ **No bus services found** for bus stop " + code
      + "\n\nThis stop may not be active or may not have scheduled services."
    case Board(timestamp, shown) =>
      "🚌 **Bus arrivals for stop " + code + "**\n⏰ *Updated: " + timestamp + "*\n\n" + ServiceBlocksText(shown)
  }

  /** `get_bus_arrival_tool(code, service_no)` over the gateway's result. */
  function BusArrivalTool(code: string, filter: Option<string>, result: ArrivalResult): string {
    RenderArrival(code, ArrivalViewOf(filter, result))
  }

  /**
   * The arrival tool's decisions: an error is shown under the heading of its
   * kind with the gateway's message; a non-success record is an unexpected
   * response; an empty service list says so; otherwise exactly the services
   * matching the filter are shown, in upstream order, and all of them when no
   * filter is given.
   */
  lemma ArrivalViewSpec(filter: Option<string>, result: ArrivalResult)
    ensures var v := ArrivalViewOf(filter, result);
      && (result.ArrivalError? ==> v == ErrorNotice(ArrivalHeading(result.kind), result.message))
      && (result.ArrivalData? && result.status != "success" ==> v == UnexpectedResponse)
      && (result.ArrivalData? && result.status == "success" && result.services == [] ==> v == NoServices)
      && (result.ArrivalData? && result.status == "success" && result.services != [] ==>
            && v.Board? && v.timestamp == result.timestamp
            && IsSubsequence(v.shown, result.services)
            && (forall s :: s in v.shown <==> s in result.services && ServiceWanted(s, filter))
            && (!Truthy(filter) ==> v.shown == result.services))
  {
    if result.ArrivalData? && result.status == "success" && result.services != [] {
      var shown := SelectServices(result.services, filter);
      if !Truthy(filter) {
        assert forall s :: multiset(shown)[s] == multiset(result.services)[s];
        assert multiset(shown) == multiset(result.services);
        NoDropSubsequence(shown, result.services);
      }
    }
  }

  // ---------------------------------------------------------------------------
  // `find_bus_stops_by_location_tool`
  // ---------------------------------------------------------------------------

  /** A stop hit with its position in the list, counted from 1. */
  datatype NumberedStop = NumberedStop(number: nat, hit: StopHit)

  datatype StopListView = NoStopsFound | StopList(entries: seq<NumberedStop>)

  function Numbered(hits: seq<StopHit>): (entries: seq<NumberedStop>)
    ensures |entries| == |hits|
    ensures forall i :: 0 <= i < |hits| ==> entries[i].number == i + 1 && entries[i].hit == hits[i]
  {
    seq(|hits|, i requires 0 <= i < |hits| => NumberedStop(i + 1, hits[i]))
  }

  function StopListViewOf(hits: seq<StopHit>): StopListView {
    if hits == [] then NoStopsFound else StopList(Numbered(hits))
  }

  function StopEntryText(e: NumberedStop, percent: real -> string): string {
    "**" + IntToString(e.number) + ". " + e.hit.description + "** (Code: " + e.hit.code + ")\n"
    + "📍 " + e.hit.roadName + "\n"
    + "🎯 Match: " + percent(e.hit.score) + "\n\n"
  }

  function StopEntriesText(entries: seq<NumberedStop>, percent: real -> string): string {
    if entries == [] then "" else StopEntryText(entries[0], percent) + StopEntriesText(entries[1..], percent)
  }

  /** The header of a non-empty stop list, carrying the number of matches. */
  function FoundHeader(count: nat, query: string): string {
    "🔍 **Found " + IntToString(count) + " bus stops** near '" + query + "':\n\n"
  }

  function RenderStopList(query: string, view: StopListView, percent: real -> string): string {
    match view
    case NoStopsFound =>
      "❌ **No bus stops found** matching '" + query + "'\n\n💡 **Try:**\n"
      + "• Different spelling or shorter search term\n"
      + "• Landmark names like 'ION Orchard' or 'Ang Mo Kio Hub'\n"
      + "• Area names like 'Marina Bay' or 'Jurong'\n"
      + "• Check for typos"
    case StopList(entries) =>
      FoundHeader(|entries|, query) + StopEntriesText(entries, percent)
      + "💡 **Reply with the number** (e.g., '1') to get bus arrivals!"
  }

  /**
   * `find_bus_stops_by_location_tool(query, max_results)`. The `:.1%`
   * formatting of a score is the parameter `percent`.
   */
  function FindStopsTool(catalog: seq<Stop>, ratio: RatioOracle, query: string, maxResults: int, percent: real -> string)
    : string
  {
    RenderStopList(query, StopListViewOf(FindStopsForLocation(catalog, query, maxResults, ratio)), percent)
  }

  /**
   * No matches give the no-match message; otherwise the header counts the
   * matches and the entries are the matches in rank order, numbered 1 to n.
   */
  lemma FindStopsToolSpec(catalog: seq<Stop>, ratio: RatioOracle, query: string, maxResults: int, percent: real -> string)
    ensures var hits := FindStopsForLocation(catalog, query, maxResults, ratio);
      var v := StopListViewOf(hits);
      && (hits == [] <==> v == NoStopsFound)
      && (v.StopList? ==>
            && StartsWith(FindStopsTool(catalog, ratio, query, maxResults, percent), FoundHeader(|hits|, query))
            && |v.entries| == |hits|
            && forall i :: 0 <= i < |hits| ==> v.entries[i] == NumberedStop(i + 1, hits[i]))
  {
    StopListSpec(query, FindStopsForLocation(catalog, query, maxResults, ratio), percent);
  }

  /** The stop list for any hits: the no-match message exactly when there are none, else numbered entries under a counting header. */
  lemma StopListSpec(query: string, hits: seq<StopHit>, percent: real -> string)
    ensures var v := StopListViewOf(hits);
      && (hits == [] <==> v == NoStopsFound)
      && (v.StopList? ==>
            && StartsWith(RenderStopList(query, v, percent), FoundHeader(|hits|, query))
            && |v.entries| == |hits|
            && forall i :: 0 <= i < |hits| ==> v.entries[i] == NumberedStop(i + 1, hits[i]))
  {
    if hits != [] {
      var entries := Numbered(hits);
      var rest := StopEntriesText(entries, percent) + "💡 **Reply with the number** (e.g., '1') to get bus arrivals!";
      assert RenderStopList(query, StopList(entries), percent) == FoundHeader(|hits|, query) + rest;
    }
  }

  // ---------------------------------------------------------------------------
  // `get_bus_arrivals_by_location_tool`
  // ---------------------------------------------------------------------------

  /** At most this many stops, and this many services per stop, are examined. */
  const LocationStopCap: nat := 3
  const LocationServiceCap: nat := 3

  datatype LivePhrase = NowArriving | MinutesAway(n: int)

  /** One live-arrival line: the service and its next bus. */
  datatype LiveLine = LiveLine(serviceNo: string, phrase: LivePhrase, load: Crowding)

  /** The line for a service, if it is wanted and its next bus has a known minute count. */
  function LiveLineOf(s: ServiceInfo, filter: Option<string>): (o: Option<LiveLine>)
    ensures o.Some? <==> ServiceWanted(s, filter) && s.next1.Available? && s.next1.minutes.Some?
    ensures o.Some? ==>
      && o.value.serviceNo == s.serviceNo
      && o.value.load == s.next1.load
      && (s.next1.minutes.value <= 0 ==> o.value.phrase == NowArriving)
      && (s.next1.minutes.value > 0 ==> o.value.phrase == MinutesAway(s.next1.minutes.value))
  {
    if !ServiceWanted(s, filter) then None
    else
      match s.next1
      case Available(Some(m), load, _, _) => Some(LiveLine(s.serviceNo, if m <= 0 then NowArriving else MinutesAway(m), load))
      case _ => None
  }

  /** The services that get a live line, in service order. */
  function LiveServices(services: seq<ServiceInfo>, filter: Option<string>): seq<ServiceInfo> {
    Filter(services, (s: ServiceInfo) => LiveLineOf(s, filter).Some?)
  }

  /** The live lines of the services, in service order: one per service that has one. */
  function LiveLines(services: seq<ServiceInfo>, filter: Option<string>): (lines: seq<LiveLine>)
    ensures |lines| <= |services|
    ensures forall l :: l in lines <==> exists i :: 0 <= i < |services| && LiveLineOf(services[i], filter) == Some(l)
  {
    if services == [] then []
    else
      var rest := LiveLines(services[1..], filter);
      assert forall i :: 1 <= i < |services| ==> services[i] == services[1..][i - 1];
      (match LiveLineOf(services[0], filter) case Some(l) => [l] case None => [])
      + rest
  }

  /** The i-th live line belongs to the i-th service that has one: one line per such service, in order. */
  lemma {:induction false} LiveLinesInOrder(services: seq<ServiceInfo>, filter: Option<string>)
    ensures var lines := LiveLines(services, filter);
      var kept := LiveServices(services, filter);
      |lines| == |kept| && forall i :: 0 <= i < |kept| ==> LiveLineOf(kept[i], filter) == Some(lines[i])
  {
    if services != [] {
      var rest := services[1..];
      LiveLinesInOrder(rest, filter);
      var o := LiveLineOf(services[0], filter);
      var head := if o.Some? then [o.value] else [];
      var headKept := if o.Some? then [services[0]] else [];
      assert LiveLines(services, filter) == head + LiveLines(rest, filter);
      assert LiveServices(services, filter) == headKept + LiveServices(rest, filter);
      PairedPrefix(services[0], filter, head, headKept, LiveLines(rest, filter), LiveServices(rest, filter));
    }
  }

  /** Putting a service's own line, if any, in front of a paired list keeps it paired. */
  lemma PairedPrefix(s: ServiceInfo, filter: Option<string>, head: seq<LiveLine>, headKept: seq<ServiceInfo>,
                     lines: seq<LiveLine>, kept: seq<ServiceInfo>)
    requires LiveLineOf(s, filter).Some? ==> head == [LiveLineOf(s, filter).value] && headKept == [s]
    requires LiveLineOf(s, filter).None? ==> head == [] && headKept == []
    requires |lines| == |kept| && forall i :: 0 <= i < |kept| ==> LiveLineOf(kept[i], filter) == Some(lines[i])
    ensures |head + lines| == |headKept + kept|
    ensures forall i :: 0 <= i < |headKept + kept| ==> LiveLineOf((headKept + kept)[i], filter) == Some((head + lines)[i])
  {
  }

  /** What is shown under one stop. */
  datatype StopStatus =
    | ApiMissing
    | ApiSlow
    | ApiFailed(message: string)
    | NoServicesListed
    | Live(lines: seq<LiveLine>)
    | Silent

  /** The status of one stop from its arrival result; only the first three services are examined. */
  function StatusOf(result: ArrivalResult, filter: Option<string>): (st: StopStatus)
    ensures st.Live? <==> result.ArrivalData? && result.status == "success" && result.services != []
    ensures st.Live? ==> |st.lines| <= LocationServiceCap
    ensures st.Live? ==> forall l :: l in st.lines <==>
      exists i :: 0 <= i < |result.services| && i < LocationServiceCap && LiveLineOf(result.services[i], filter) == Some(l)
    ensures st.Live? ==> var kept := LiveServices(SliceTo(result.services, LocationServiceCap), filter);
      |st.lines| == |kept| && forall i :: 0 <= i < |kept| ==> LiveLineOf(kept[i], filter) == Some(st.lines[i])
  {
    match result
    case ArrivalError(kind, message) =>
      if kind == NotFound then ApiMissing
      else if kind == Timeout then ApiSlow
      else ApiFailed(message)
    case ArrivalData(_, _, services, status) =>
      if status != "success" then Silent
      else if services == [] then NoServicesListed
      else
        LiveLinesInOrder(SliceTo(services, LocationServiceCap), filter);
        Live(LiveLines(SliceTo(services, LocationServiceCap), filter))
  }

  datatype StopReport = StopReport(number: nat, hit: StopHit, status: StopStatus)

  /** The live-data stop count `successful_stops`. */
  function CountLive(reports: seq<StopReport>): (n: nat)
    ensures n == 0 <==> forall i :: 0 <= i < |reports| ==> !reports[i].status.Live?
  {
    if reports == [] then 0
    else (if reports[0].status.Live? then 1 else 0) + CountLive(reports[1..])
  }

  datatype LocationView =
    | NoStopsNear
    | Report(total: nat, stops: seq<StopReport>, noLiveData: bool)

  /** The arrival fetch for a stop: upstream outcome for (stop code, service filter). */
  type ArrivalFetch = (string, Option<string>) -> Upstream<ArrivalPayload>

  function StopReports(hits: seq<StopHit>, filter: Option<string>, fetch: ArrivalFetch, now: string): seq<StopReport> {
    var n := Min(|hits|, LocationStopCap);
    seq(n, i requires 0 <= i < n =>
      StopReport(i + 1, hits[i], StatusOf(GetBusArrival(hits[i].code, now, fetch(hits[i].code, filter)), filter)))
  }

  function LocationViewOf(hits: seq<StopHit>, filter: Option<string>, fetch: ArrivalFetch, now: string): LocationView {
    if hits == [] then NoStopsNear
    else
      var reports := StopReports(hits, filter, fetch, now);
      Report(|hits|, reports, CountLive(reports) == 0)
  }

  function LiveLineText(l: LiveLine): string {
    var when := match l.phrase
      case NowArriving => "Arriving now"
      case MinutesAway(n) => IntToString(n) + "min";
    "  🚌 " + l.serviceNo + ": **" + when + "** - " + CrowdingLabel(l.load) + "\n"
  }

  function LiveLinesText(lines: seq<LiveLine>): string {
    if lines == [] then "" else LiveLineText(lines[0]) + LiveLinesText(lines[1..])
  }

  function StatusText(st: StopStatus): string {
    match st
    case ApiMissing => "❌ Not found in API\n"
    case ApiSlow => "⏰ Timeout - try again\n"
    case ApiFailed(message) => "❌ Error: " + message + "\n"
    case NoServicesListed => "ℹ️ No services available\n"
    case Live(lines) => "✅ **Live arrivals:**\n" + LiveLinesText(lines)
    case Silent => ""
  }

  function StopReportText(r: StopReport): string {
    "**" + IntToString(r.number) + ". " + r.hit.description + "** (" + r.hit.code + ")\n📍 " + r.hit.roadName + "\n"
    + StatusText(r.status) + "\n"
  }

  function StopReportsText(reports: seq<StopReport>): string {
    if reports == [] then "" else StopReportText(reports[0]) + StopReportsText(reports[1..])
  }

  const NoLiveDataNote: string := "❌ **No live data available** for these stops.\nTry again or use specific bus stop codes."

  function RenderLocation(query: string, view: LocationView): string {
    match view
    case NoStopsNear =>
      "❌ **No bus stops found** matching '" + query + "'\n\nPlease try a different search term or be more specific."
    case Report(total, stops, noLiveData) =>
      "🔍 **Bus arrivals near '" + query + "'**\nFound " + IntToString(total) + " stops:\n\n"
      + StopReportsText(stops)
      + (if noLiveData then NoLiveDataNote else "")
  }

  /** `get_bus_arrivals_by_location_tool(query, service_no, max_stops)`. */
  function ArrivalsByLocationTool(
    catalog: seq<Stop>, ratio: RatioOracle, query: string, filter: Option<string>, maxStops: int,
    fetch: ArrivalFetch, now: string): string
  {
    RenderLocation(query, LocationViewOf(FindStopsForLocation(catalog, query, maxStops, ratio), filter, fetch, now))
  }

  /**
   * At most three stops are reported, numbered from 1, each the matcher's hit
   * at that rank with the status of its own arrival lookup; the header counts
   * every match; at most three live lines per stop; and the no-live-data note
   * is appended exactly when no reported stop returned a non-empty service list.
   */
  lemma LocationViewSpec(hits: seq<StopHit>, filter: Option<string>, fetch: ArrivalFetch, now: string)
    ensures var v := LocationViewOf(hits, filter, fetch, now);
      && (hits == [] <==> v == NoStopsNear)
      && (v.Report? ==>
            && v.total == |hits|
            && |v.stops| == Min(|hits|, LocationStopCap)
            && (forall i :: 0 <= i < |v.stops| ==>
                  var result := GetBusArrival(hits[i].code, now, fetch(hits[i].code, filter));
                  && v.stops[i].number == i + 1 && v.stops[i].hit == hits[i]
                  && v.stops[i].status == StatusOf(result, filter)
                  && (v.stops[i].status.Live? ==> |v.stops[i].status.lines| <= LocationServiceCap))
            && (v.noLiveData <==>
                  forall i :: 0 <= i < |v.stops| ==>
                    var result := GetBusArrival(hits[i].code, now, fetch(hits[i].code, filter));
                    !(result.ArrivalData? && result.status == "success" && result.services != [])))
  {
  }

  // ---------------------------------------------------------------------------
  // `get_carpark_availability_tool`
  // ---------------------------------------------------------------------------

  /** At most this many carparks are listed. */
  const CarparkCap: nat := 8

  datatype CarparkHeading = RequestHeading | JsonHeading | OtherHeading

  function CarparkHeadingOf(k: ErrorKind): CarparkHeading {
    if k == Request then RequestHeading else if k == Json then JsonHeading else OtherHeading
  }

  datatype CarparkView =
    | CarparkNotice(heading: CarparkHeading, message: string)
    | NoCarparkWithId(id: string)
    | NoCarparksInArea(area: string)
    | NoCarparkData
    | CarparkList(timestamp: string, shown: seq<Carpark>, more: nat)

  function CarparkViewOf(id: Option<string>, area: Option<string>, result: CarparkResult): CarparkView {
    match result
    case CarparkError(kind, message) => CarparkNotice(CarparkHeadingOf(kind), message)
    case CarparkData(timestamp, cs) =>
      if cs == [] then
        if Truthy(id) then NoCarparkWithId(id.value)
        else if Truthy(area) then NoCarparksInArea(area.value)
        else NoCarparkData
      else
        CarparkList(timestamp, SliceTo(cs, CarparkCap), if |cs| > CarparkCap then |cs| - CarparkCap else 0)
  }

  function CarparkEntryText(c: Carpark): string {
    "**🏢 " + c.development + "**\n"
    + "📍 " + c.location + "\n"
    + "🚗 **" + IntToString(c.availableLots) + " lots available** (" + c.lotType + ")\n"
    + "🆔 " + c.id + " | 📍 " + c.area + "\n\n"
  }

  function CarparkEntriesText(cs: seq<Carpark>): string {
    if cs == [] then "" else CarparkEntryText(cs[0]) + CarparkEntriesText(cs[1..])
  }

  /** The trailing "... and N more" line, present only for a positive N. */
  function MoreText(more: nat): string {
    if more > 0 then "... and **" + IntToString(more) + " more** carparks available" else ""
  }

  function RenderCarparks(view: CarparkView): string {
    match view
    case CarparkNotice(RequestHeading, message) => "🌐 **API Request Failed**\n" + message + "\n\nCheck internet and try again."
    case CarparkNotice(JsonHeading, message) => "📄 **Data Format Error**\n" + message + "\n\nAPI returned invalid data."
    case CarparkNotice(OtherHeading, message) => "❌ **Error:** " + message
    case NoCarparkWithId(id) => "❌ **No carpark found** with ID `" + id + "`\n\n💡 Try searching by area instead."
    case NoCarparksInArea(area) => "❌ **No carparks found** in area `" + area + "`\n\n💡 Try a different area name."
    case NoCarparkData => "❌ **No carpark data available** at this time."
    case CarparkList(timestamp, shown, more) =>
      "🅿️ **Carpark availability**\n⏰ *Updated: " + timestamp + "*\n\n" + CarparkEntriesText(shown) + MoreText(more)
  }

  /**
   * `get_carpark_availability_tool(id, area)`: an exception the gateway lets
   * through escapes the tool as well.
   */
  function CarparkTool(id: Option<string>, area: Option<string>, now: string, up: Upstream<CarparkPayload>): ToolOutcome {
    match GetCarparkAvailability(id, area, now, up)
    case Failure(detail) => Raised(detail)
    case Success(result) => Returned(RenderCarparks(CarparkViewOf(id, area, result)))
  }

  /**
   * The carpark tool's decisions: the error kind picks the heading (request,
   * JSON, anything else); an empty list is reported by id first, then by
   * area, then generically; otherwise the first eight carparks are listed in
   * order, and "... and N more" is added exactly when there are more than
   * eight, with N the number left out.
   */
  lemma CarparkViewSpec(id: Option<string>, area: Option<string>, result: CarparkResult)
    ensures var v := CarparkViewOf(id, area, result);
      && (result.CarparkError? ==>
            && v.CarparkNotice? && v.message == result.message
            && (v.heading == RequestHeading <==> result.kind == Request)
            && (v.heading == JsonHeading <==> result.kind == Json))
      && (result.CarparkData? && result.carparks == [] ==>
            && (Truthy(id) ==> v == NoCarparkWithId(id.value))
            && (!Truthy(id) && Truthy(area) ==> v == NoCarparksInArea(area.value))
            && (!Truthy(id) && !Truthy(area) ==> v == NoCarparkData))
      && (result.CarparkData? && result.carparks != [] ==>
            var n := |result.carparks|;
            && v.CarparkList?
            && |v.shown| == Min(n, CarparkCap)
            && v.shown == result.carparks[..|v.shown|]
            && (v.more > 0 <==> n > CarparkCap)
            && |v.shown| + v.more == n)
  {
  }

  // ---------------------------------------------------------------------------
  // The registry (`TOOL_FUNCTIONS`)
  // ---------------------------------------------------------------------------

  /** The four registered tools. */
  datatype ToolKind = BusArrival | FindStops | ArrivalsByLocation | CarparkAvailability

  /** The name each tool is registered (and advertised to the model) under. */
  function ToolName(k: ToolKind): string {
    match k
    case BusArrival => "get_bus_arrival"
    case FindStops => "find_bus_stops_by_location"
    case ArrivalsByLocation => "get_bus_arrivals_by_location"
    case CarparkAvailability => "get_carpark_availability"
  }

  const RegisteredNames: seq<string> :=
    ["get_bus_arrival", "find_bus_stops_by_location", "get_bus_arrivals_by_location", "get_carpark_availability"]

  /** `name in TOOL_FUNCTIONS` and the entry it selects. */
  function LookupTool(name: string): Option<ToolKind> {
    if name == "get_bus_arrival" then Some(BusArrival)
    else if name == "find_bus_stops_by_location" then Some(FindStops)
    else if name == "get_bus_arrivals_by_location" then Some(ArrivalsByLocation)
    else if name == "get_carpark_availability" then Some(CarparkAvailability)
    else None
  }

  /**
   * The registry has exactly four distinct names: a name is found exactly
   * when it is one of them, it is found as the tool registered under it, and
   * every tool is found under its own name.
   */
  lemma RegistrySpec(name: string, k: ToolKind)
    ensures LookupTool(ToolName(k)) == Some(k)
    ensures LookupTool(name).Some? <==> name in RegisteredNames
    ensures LookupTool(name).Some? ==> ToolName(LookupTool(name).value) == name
    ensures |RegisteredNames| == 4
    ensures forall i, j :: 0 <= i < j < |RegisteredNames| ==> RegisteredNames[i] != RegisteredNames[j]
  {
  }

  /** What running a tool gives: its text, or the text of the exception it raised. */
  datatype ToolOutcome = Returned(text: string) | Raised(detail: string)

  /** Default of `max_results` and `max_stops` when the model leaves them out. */
  const DefaultMaxResults: int := 5

  /**
   * The arguments of each tool, bound by keyword; `None` is an argument the
   * model left out, which takes the parameter's default.
   */
  datatype ToolArgs =
    | BusArrivalArgs(busStopCode: string, serviceNo: Option<string>)
    | FindStopsArgs(locationQuery: string, maxResults: Option<int>)
    | ArrivalsByLocationArgs(locationQuery: string, serviceNo: Option<string>, maxStops: Option<int>)
    | CarparkArgs(carparkId: Option<string>, area: Option<string>)

  /** A count argument, or the default 5 when it was left out. */
  function CountOrDefault(n: Option<int>): (c: int)
    ensures n.Some? ==> c == n.value
    ensures n.None? ==> c == DefaultMaxResults
  {
    match n
    case Some(v) => v
    case None => DefaultMaxResults
  }

  /**
   * Everything the tools consult: the stop catalog, the similarity ratio, the
   * upstream outcomes, the current time as text, and the percentage formatter.
   */
  datatype World = World(
    catalog: seq<Stop>,
    ratio: RatioOracle,
    fetchArrival: ArrivalFetch,
    fetchCarparks: Upstream<CarparkPayload>,
    now: string,
    percent: real -> string)

  /** Calling the registered function with bound arguments. */
  function Invoke(a: ToolArgs, w: World): (o: ToolOutcome)
    ensures o.Raised? <==> a.CarparkArgs? && w.fetchCarparks.Crashed?
  {
    match a
    case BusArrivalArgs(code, svc) =>
      Returned(BusArrivalTool(code, svc, GetBusArrival(code, w.now, w.fetchArrival(code, svc))))
    case FindStopsArgs(query, maxResults) =>
      Returned(FindStopsTool(w.catalog, w.ratio, query, CountOrDefault(maxResults), w.percent))
    case ArrivalsByLocationArgs(query, svc, maxStops) =>
      Returned(ArrivalsByLocationTool(w.catalog, w.ratio, query, svc, CountOrDefault(maxStops), w.fetchArrival, w.now))
    case CarparkArgs(id, area) =>
      CarparkTool(id, area, w.now, w.fetchCarparks)
  }
}
